=== FILE: README.md ===
# Sage notebook launcher: a Dafny model

This project models the pure decision logic of `notebook_run` in
`sagenb/notebook/run_notebook.py`, the launcher of the Sage Notebook server,
and proves properties of it. The model covers:

- the checks that reject withdrawn arguments;
- where the notebook directory is taken from;
- the `root` to `admin` account migration and the admin password prompt loop;
- the certificate template written for a secure server;
- the settings text (`notebook_opts`), the Twisted endpoint string
  (`strport`), the browser-opening statement (`open_page`) and the server
  command lines;
- how a second launch reuses a running Twisted server, by reading the
  settings back out of `twistedconf.tac` with `get_old_settings`;
- how the exit status of the server becomes the launch's result.

A launch is a pure function `Launcher.Run` of the launch parameters and of
what its collaborators answer. It returns the effects it performs, in order,
and how it ends. The collaborators are the file system, the notebook store,
the terminal, Twisted's PID check and `os.system`. Effects are recorded, not
performed.

Modules, one file each:

| file | module | contents |
|---|---|---|
| `option.dfy` | `Wrappers` | Python's `None` or a value |
| `text.dfy` | `Text` | characters, decimal numerals, `strip`, `split` on one character |
| `paths.dfy` | `Paths` | `posixpath.split` and `posixpath.join` |
| `settings.dfy` | `SettingsFormat` | `notebook_opts`; the regular expression of `get_old_settings` with Python's search semantics; the reader |
| `launch_params.dfy` | `LaunchParams` | withdrawn arguments; directory normalisation |
| `cert_template.dfy` | `CertTemplate` | the template dictionary; its rendering; the domain-name prompt |
| `admin_password.dfy` | `AdminPassword` | the loop of `get_admin_passwd` |
| `server_config.dfy` | `ServerConfig` | certificate file paths, `strport`, `open_page`, command lines, the Twisted configuration around the settings |
| `launcher.dfy` | `Launcher` | `notebook_run` as a whole |

How the regular expression is read. The reader applies
`interface="(.*)",port=(\d*),secure=(True|False)` with `re.search`, which
takes:

- the leftmost position where the pattern matches;
- at that position, the longest `.*` capture that lets the rest match;
- `.` never matching a line break.

`Locate` is proved to return exactly the leftmost-longest match
(`LeftmostLongest`), or nothing when no position matches.

## Model

| member | source | states |
|---|---|---|
| SettingsFormat.NotebookOpts | sagenb/notebook/run_notebook.py:490-491 | the text opens with the quoted directory and a comma; for an interface without a line break, what follows is a match of the reader's pattern right after the quoted directory, with captures equal to the interface, the decimal port and the flag |
| SettingsFormat.Locate | sagenb/notebook/run_notebook.py:200-202 | the position and captures reported are the leftmost match with the longest interface capture; no result means no position matches |
| SettingsFormat.GetOldSettings | sagenb/notebook/run_notebook.py:200-209 | unreadable file or no match gives `(None, None, None)`; otherwise the leftmost-longest match, whose port is all digits and whose interface has no line break |
| SettingsFormat.GetOldSettingsAsWritten | sagenb/notebook/run_notebook.py:201-209 | the reader as the code stands: a readable file raises `AttributeError` exactly when no position matches; otherwise it returns the leftmost-longest match |
| SettingsFormat.LocateDetermined | sagenb/notebook/run_notebook.py:200-202 | a match with no earlier match and no longer capture at its position is the one the search reports |
| SettingsFormat.SameCapture | sagenb/notebook/run_notebook.py:200 | at one position, the interface capture's length fixes the whole match (port and flag included) |
| SettingsFormat.SettingsRoundTrip | sagenb/notebook/run_notebook.py:199-207 | reading back the written settings text gives the interface, the port as a decimal string whose value is the port, and the flag, provided the interface has no line break and the quoted directory does not contain `interface="` |
| SettingsFormat.EmbeddedRoundTrip | sagenb/notebook/run_notebook.py:199-207 | the same round trip inside a larger file, when the text before it holds no `interface="` and the text after it has no quotation mark before its first line break |
| SettingsFormat.DirectoryEndingInMarkerMisreads | sagenb/notebook/run_notebook.py:490-491 | a data directory whose path ends in `interface=` is read back with the wrong interface, so the directory condition of the round trip is needed |
| LaunchParams.CheckLegacy | sagenb/notebook/run_notebook.py:317-324 | no error exactly when no withdrawn argument is given; `subnets` is reported first, then `require_login`/`open_viewer`, then `address` |
| LaunchParams.NormaliseDirectory | sagenb/notebook/run_notebook.py:328-339 | the notebook name has no slash; a directory to enter is never empty |
| LaunchParams.DirectoryPath | sagenb/notebook/run_notebook.py:328-333 | no argument gives `DOT_SAGENB/sage_notebook`; an argument loses one trailing slash if it has one and is otherwise kept |
| LaunchParams.NormaliseDirectoryName | sagenb/notebook/run_notebook.py:328-339 | the notebook name is the text after the last slash of the normalised path; a directory is entered exactly when that path has a slash |
| LaunchParams.NormaliseDirectoryEnter | sagenb/notebook/run_notebook.py:336-338 | the directory entered is the text before the name with its trailing slashes removed, unless that text is all slashes |
| LaunchParams.TrailingSlashDropped | sagenb/notebook/run_notebook.py:331-333 | `d/` and `d` give the same directory and notebook name |
| LaunchParams.SecondSlashKept | sagenb/notebook/run_notebook.py:331-339 | with two trailing slashes only one is removed, and the notebook name comes out empty |
| LaunchParams.DefaultDirectory | sagenb/notebook/run_notebook.py:328-339 | with no directory argument the launcher enters `DOT_SAGENB` and loads `sage_notebook` |
| LaunchParams.ParentAndName | sagenb/notebook/run_notebook.py:336-339 | for `parent/name` the launcher enters `parent` and loads `name` |
| Paths.SplitThenJoin | sagenb/notebook/run_notebook.py:336 | joining the two parts of `os.path.split` gives the path back, unless the split removed two or more slashes before the last component |
| CertTemplate.Word | sagenb/notebook/run_notebook.py:249-254 | a value equal to `True` (the integer 1 included) gives an empty word; a value that is not a list gives a word in double quotes |
| CertTemplate.ItemParts | sagenb/notebook/run_notebook.py:251-252 | the words of a list line between its quotes: the `k`-th item at index `2k`, a single space between neighbours |
| CertTemplate.StrLineFields | sagenb/notebook/run_notebook.py:253-255 | split at its double quotes, a string entry's line is the key part, the string itself and the line end |
| CertTemplate.IntLineFields | sagenb/notebook/run_notebook.py:253-255 | split at its double quotes, an integer entry's line other than for 1 is the key part, the integer's decimal text and the line end |
| CertTemplate.FalseLineFields | sagenb/notebook/run_notebook.py:253-255 | a `False` entry's line holds the quoted word `False` |
| CertTemplate.FlagLine | sagenb/notebook/run_notebook.py:249-255 | a value equal to `True` (the integer 1 included) and an empty list write `key =` with nothing after it and no quotes |
| CertTemplate.ListLineFields | sagenb/notebook/run_notebook.py:251-255 | split at its double quotes, a list entry's line is the key part, the items separated by single spaces, and the line end |
| CertTemplate.RenderTemplate | sagenb/notebook/run_notebook.py:245-255 | the loop's text is the concatenation of the lines of the entries that are not `None`, in order |
| CertTemplate.LineCount | sagenb/notebook/run_notebook.py:245-255 | one line per entry that is not `None` |
| CertTemplate.LineMembership | sagenb/notebook/run_notebook.py:246-255 | a line is written exactly when some entry that is not `None` renders to it |
| CertTemplate.LinesPermutation | sagenb/notebook/run_notebook.py:246 | the dictionary's iteration order permutes the lines and changes nothing else |
| CertTemplate.LineBreaks | sagenb/notebook/run_notebook.py:255 | the file has as many line breaks as entries that are not `None`, provided no key or value holds a line break |
| CertTemplate.DomainName | sagenb/notebook/run_notebook.py:218-221 | the domain name is never empty and has no surrounding whitespace; a blank answer gives `localhost` |
| CertTemplate.DomainNameStable | sagenb/notebook/run_notebook.py:218-221 | answering the prompt with the chosen domain name chooses it again |
| CertTemplate.TemplatePresent | sagenb/notebook/run_notebook.py:224-248 | twelve of the nineteen template entries are written |
| CertTemplate.TemplateEntries | sagenb/notebook/run_notebook.py:224-243 | the template dictionary has nineteen entries |
| CertTemplate.TemplateKeys | sagenb/notebook/run_notebook.py:224-243 | no key appears twice, so `cn` holds the domain name and `serial` the decimal serial in any order |
| CertTemplate.TemplateWrites | sagenb/notebook/run_notebook.py:229-240 | the `cn` entry writes the domain name; `tls_www_server` writes a bare flag line |
| CertTemplate.ReorderedLines | sagenb/notebook/run_notebook.py:245-255 | in any iteration order the file has one line per entry that is not `None`, and exactly their lines |
| CertTemplate.TemplateShape | sagenb/notebook/run_notebook.py:224-255 | in any iteration order the template has twelve lines, among them `cn` with the domain name and the bare `tls_www_server` flag |
| AdminPassword.Choose | sagenb/notebook/run_notebook.py:577-590 | an accepted password is at least `min_password_length` long and was the last two answers read |
| AdminPassword.GetAdminPasswd | sagenb/notebook/run_notebook.py:577-590 | the imperative loop returns what the recursive definition gives |
| AdminPassword.FirstValidPairWins | sagenb/notebook/run_notebook.py:577-587 | after any rejected rounds, a long enough password typed twice is accepted, whatever follows |
| AdminPassword.ChosenAfterRejected | sagenb/notebook/run_notebook.py:577-587 | conversely, the answers read before an accepted password are rejected rounds only |
| AdminPassword.ExhaustedAfterRejected | sagenb/notebook/run_notebook.py:578-583 | the answers run out only after rejected rounds and at most one long enough password whose retype never came |
| AdminPassword.RejectedRunsOut | sagenb/notebook/run_notebook.py:578-585 | such answers leave the loop without a password |
| ServerConfig.CertificateFiles | sagenb/notebook/run_notebook.py:32-36 | the key, certificate and template files are `notebook/private.pem`, `notebook/public.pem` and `notebook/cert.cfg` under `DOT_SAGENB` |
| ServerConfig.Strport | sagenb/notebook/run_notebook.py:484-488 | the endpoint starts with `ssl:` for a secure server and `tcp:` otherwise |
| ServerConfig.StrportFields | sagenb/notebook/run_notebook.py:484-488 | split at colons, the endpoint is protocol, port, interface option and, for a secure server only, the two key-file options |
| ServerConfig.HostName | sagenb/notebook/run_notebook.py:495-498 | the browser host is never empty: the interface when there is one, `localhost` otherwise |
| ServerConfig.OpenPage | sagenb/notebook/run_notebook.py:493-501 | the statement is empty exactly without automatic login |
| ServerConfig.OpenPageFields | sagenb/notebook/run_notebook.py:493-499 | between the statement's single quotes stand the host, then the port and the `True`/`False` flag; an empty interface and `localhost` give the same statement |
| ServerConfig.FlaskCommand | sagenb/notebook/run_notebook.py:450 | the Flask command is `python`, two spaces (the empty profiling option between them) and the configuration file |
| ServerConfig.TwistdCommand | sagenb/notebook/run_notebook.py:522 | the Twisted command is `twistd`, two spaces (the empty profiling option between them), `--pidfile=` with the quoted PID file, then `-ny` and the quoted configuration file |
| ServerConfig.FlaskCommandFields | sagenb/notebook/run_notebook.py:450 | split at spaces, the Flask command is the interpreter, the empty profiling option and the configuration file |
| ServerConfig.TwistdCommandFields | sagenb/notebook/run_notebook.py:522 | the PID file and the configuration are the double-quoted words of the Twisted command |
| ServerConfig.TwistdFile | sagenb/notebook/run_notebook.py:505-507 | the Twisted configuration holds the settings text between the template text before it and `, **opts)` with a line break after it, as at line 158 |
| ServerConfig.TwistdFileReadBack | sagenb/notebook/run_notebook.py:503-507 | a Twisted configuration written with the settings text is read back with the interface, port and flag written |
| Launcher.Entering | sagenb/notebook/run_notebook.py:335-338 | there is a directory step exactly when the normalised path has a directory part, and it enters that part, the head of the split |
| Launcher.CopyStage | sagenb/notebook/run_notebook.py:374-378 | the one step, copying `root`'s password to `admin`, happens exactly for a store with `root` and without `admin` |
| Launcher.AdminStage | sagenb/notebook/run_notebook.py:380-386 | the prompts stop the launch exactly when a password is needed and the answers run out; otherwise a needed password is set to the one the prompt loop accepted, and nothing is done when none is needed |
| Launcher.CertStage | sagenb/notebook/run_notebook.py:536-541 | the set-up stops exactly for a secure launch without both key files whose domain-name prompt meets the end of input; otherwise it writes the template and makes a certificate exactly for such a launch |
| Launcher.Reuse | sagenb/notebook/run_notebook.py:467-481 | at most one browser step, exactly when automatic login is on and a non-empty port is read back; it goes to the interface (or `localhost` when empty), port and flag of the leftmost-longest match in the old configuration |
| Launcher.ServerStage | sagenb/notebook/run_notebook.py:413-523 | a command exactly for Flask, or for Twisted without another server, after writing the configuration the command reads with the launch's port, directory, interface and flags; otherwise the reuse of the other server, or the unknown-server failure |
| Launcher.Halted | sagenb/notebook/run_notebook.py:374-386 | a launch that meets the end of input fails at the password prompts exactly when they ran out, and otherwise at the domain-name prompt |
| Launcher.Run | sagenb/notebook/run_notebook.py:287-567 | `notebook_run` as a whole; a spawned server comes only from a forking launch, a finished or socket-error launch only from a foreground one; the lemmas below state the rest |
| Launcher.Execute | sagenb/notebook/run_notebook.py:559-567 | the result is a socket error exactly for a foreground server exiting with status 256 |
| Launcher.WithdrawnFirst | sagenb/notebook/run_notebook.py:317-324 | a withdrawn argument ends the launch before any effect; the launch fails that way only for a withdrawn argument, with the error `CheckLegacy` names |
| Launcher.ServerStartedIff | sagenb/notebook/run_notebook.py:545-561 | a server command runs exactly when the launch gets past the prompts with Flask, or with Twisted and no other server; otherwise no configuration is written |
| Launcher.SocketErrorIff | sagenb/notebook/run_notebook.py:559-567 | the launch fails with a socket error exactly when it runs a foreground server that exits with status 256; another status ends normally; a forked server is left running |
| Launcher.AlreadyRunningIff | sagenb/notebook/run_notebook.py:462-481 | the launch ends as already running exactly when a Twisted launch past the prompts finds another server; after its set-up it then at most browses |
| Launcher.PasswordInputEndedIff | sagenb/notebook/run_notebook.py:380-383 | the launch fails at the prompts exactly when a password is needed and the answers run out |
| Launcher.DomainInputEndedIff | sagenb/notebook/run_notebook.py:218 | the launch fails at the domain-name prompt exactly when it passes the password prompts, needs a certificate and the input ends there; it has then only prepared the directory and the admin account |
| Launcher.PasswordSetIff | sagenb/notebook/run_notebook.py:380-386 | the admin password is set to `pw` exactly when the launch needed a password and the prompt loop accepted `pw`; it is long enough |
| Launcher.CopyRootIff | sagenb/notebook/run_notebook.py:374-378 | `root`'s password is copied exactly when the arguments pass and the store has `root` but no `admin`, even if the prompts then run out |
| Launcher.CertificateSetupIff | sagenb/notebook/run_notebook.py:536-541 | a certificate is generated exactly for a secure launch past the prompts without both key files, right after the template with the domain name and serial is written |
| Launcher.ConfigThenCommand | sagenb/notebook/run_notebook.py:503-523 | a launch that runs a server writes the configuration for its port, directory, interface and flags, then starts the server from that file: Flask from `run_flask`, Twisted from `twistedconf.tac` with its PID file |
| Launcher.CommandNamesConfig | sagenb/notebook/run_notebook.py:450 | the configuration a command runs is the file its text names: the last word of Flask's command, the second quoted word of Twisted's (line 522) |
| Launcher.LastEffect | sagenb/notebook/run_notebook.py:559-566 | a foreground server is followed by the return to the starting directory; a forked server's start is the last effect |
| Launcher.EntersFirst | sagenb/notebook/run_notebook.py:335-338 | the directory step, when there is one, is the first effect |
| Launcher.EntersOnlyThere | sagenb/notebook/run_notebook.py:335-338 | without a directory step the launch changes directory nowhere |
| Launcher.RelaunchBrowses | sagenb/notebook/run_notebook.py:467-478 | a launch that finds the server started by an earlier launch browses to that launch's host, port and scheme, and does nothing else after its set-up |

## Left out

- Input and output: the files, `print`, `raw_input` and `getpass`.
  - What they return is a parameter of the model (`Launcher.Env`).
  - Writing a file is an effect in the trace.
  - End of input at the password prompts is the prompts running out (`Exhausted`, `PasswordInputEnded`); at the domain-name prompt it is the `EOFError` failure `DomainInputEnded`.
- Randomness: the certificate serial is a parameter. The startup token is drawn by the spawned server from the generated configuration; it is not part of the model, and the `open_page` text holds only the expression that reads it.
- `find_next_available_port` and `min_password_length` are not part of this model; their answers are parameters. `sagenb.misc.misc` is not part of this model.
- `open_page` in `sagenb.misc.misc` is not modelled; a browser step is a `Browse` effect.
- The notebook store is not modelled: loading, accounts, OpenID, timeouts, server pool, ulimit, migration and saving.
  - Setting the password of a missing `admin` user is an effect; the store's behaviour is not modelled.
- The full text of the two configuration templates is not modelled.
  - The Twisted configuration is `head + notebook_opts + ", **opts)\n" + rest`, with the template text around the settings as parameters (`TwistdFile`).
  - The Flask configuration is recorded by what it is written from (`Written`).
- The profiling options (`profile`) are not modelled; the command lines are those with an empty profile command.
- Certificate generation (`openssl`, `certtool`, `chmod`) is one `GenerateCertificate` effect.
  - The missing-`certtool` error is not modelled.
  - The warning printed after the set-up, when the key files are still missing, is not modelled; it only prints.
- The Windows branch (`platformType == 'win32'` skips the PID check) is not modelled; the PID check always runs.
- Reading the PID file with `int(open(pidfile).read())` is not modelled; neither are its errors.
- `port` is a natural number; `int(port)` on other inputs is not modelled.
- `secure` is a boolean; truthy non-boolean values are not modelled.
- The `isinstance(directory, basestring)` test is not modelled; a directory is a string.
- `pexpect.spawn` is a `SpawnCommand` effect whose process is not modelled.
- The warnings printed for an insecure server on an external interface, and the other messages, are not modelled.
- ServerConfig.CertificateFiles: states the file names only for a `DOT_SAGENB` without a trailing slash. With one, `os.path.join` adds no slash, and `PathJoin` states that case.
- ServerConfig.OpenPageFields: reads back the host, port and flag. It does not parse the start-path expression after them, which is a fixed text.
- CertTemplate.Word: its contract gives only the empty flag word and the surrounding quotes. What stands between the quotes of a line is stated by `StrLineFields`, `IntLineFields`, `FalseLineFields`, `FlagLine` and `ListLineFields`.
- Launcher.Reuse: reads the old settings with the corrected reader `GetOldSettings` (see Findings). On a readable `twistedconf.tac` that does not match, the source raises `AttributeError` at line 470 whatever `automatic_login` is; the model instead ends `AlreadyRunning` without a browser step.
- CertTemplate.TemplateEntries: holds the dictionary in source order. Python 2's hash order is any permutation, which `TemplateShape` and `ReorderedLines` cover.

Where the code and its documentation differ, the model follows the code:

- The certificate set-up runs before the PID check. A secure launch that finds another server still generates a missing certificate (`CertificateSetupIff`).
- Only exit status 256 is turned into an error. Any other status of a foreground server is ignored, and the launch ends normally (`SocketErrorIff`).
- A `server` other than `flask` or `twistd` leaves `cmd` unbound; the launch fails (`UnknownServer`).
- A missing or partial certificate pair (either file absent) is regenerated.
- The template renders a value equal to `True` as a bare flag, and `1 == True` in Python, so the integer 1 would be rendered that way too (`EqualsTrue`).

## Findings

| source | as written | input that shows it | evidently intended | confidence | as-written member | corrected member |
|---|---|---|---|---|---|---|
| sagenb/notebook/run_notebook.py:208 | `except IOError, AttributeError:` is Python 2 syntax for catching `IOError` only, bound to the name `AttributeError`. On a readable file without a match, `p.search(...)` is `None`, and `.groups()` raises an `AttributeError` that escapes. | a readable, empty `twistedconf.tac` (content `""`): the code raises; `AsWrittenRaisesOnUnmatched` proves this | return `(None, None, None)` as the docstring says, i.e. catch both exceptions | high for the reading of the code; not executed | SettingsFormat.GetOldSettingsAsWritten | SettingsFormat.GetOldSettings |

=== FILE: admin_password.dfy ===
/** The acceptance loop of `get_admin_passwd`: it prompts for a password,
    rejects one shorter than `min_password_length` without asking for it
    again, otherwise prompts for the retyped password and starts over when
    the two differ.  The answers to the prompts are a finite sequence; when
    it runs out before a password is accepted the outcome is `Exhausted`
    (`getpass` would raise at end of input). */
module AdminPassword {

  /** The accepted password and how many answers the loop read, or no
      password at all. */
  datatype Outcome = Chosen(passwd: string, used: nat) | Exhausted

  /** `o` with `n` more answers read before it. */
  function Shift(o: Outcome, n: nat): Outcome {
    match o
    case Chosen(p, used) => Chosen(p, used + n)
    case Exhausted => Exhausted
  }

  /** The loop over the answers `entries`.  A returned password is long
      enough, was typed twice in a row, and those two answers are the last
      ones read. */
  function Choose(entries: seq<string>, minLen: nat): (r: Outcome)
    ensures r.Chosen? ==> 2 <= r.used <= |entries|
    ensures r.Chosen? ==> |r.passwd| >= minLen
    ensures r.Chosen? ==> entries[r.used - 2] == r.passwd && entries[r.used - 1] == r.passwd
    decreases |entries|
  {
    if |entries| == 0 then Exhausted
    else if |entries[0]| < minLen then Shift(Choose(entries[1..], minLen), 1)
    else if |entries| == 1 then Exhausted
    else if entries[0] != entries[1] then Shift(Choose(entries[2..], minLen), 2)
    else Chosen(entries[0], 2)
  }

  /** The loop as the source writes it: read a password, skip it when it is
      too short, otherwise read the retyped one and stop when they agree. */
  method GetAdminPasswd(entries: seq<string>, minLen: nat) returns (r: Outcome)
    ensures r == Choose(entries, minLen)
  {
    var i := 0;
    while i < |entries|
      invariant i <= |entries|
      invariant Choose(entries, minLen) == Shift(Choose(entries[i..], minLen), i)
      decreases |entries| - i
    {
      var passwd := entries[i];
      if |passwd| < minLen {
        assert entries[i..][1..] == entries[i + 1..];
        i := i + 1;
        continue;
      }
      if i + 1 == |entries| {
        return Exhausted;
      }
      var passwd2 := entries[i + 1];
      if passwd != passwd2 {
        assert entries[i..][2..] == entries[i + 2..];
        i := i + 2;
      } else {
        return Chosen(passwd, i + 2);
      }
    }
    assert entries[i..] == [];
    return Exhausted;
  }

  /** One pass through the loop that does not return: a password that is
      too short, or a long enough one followed by a different retype. */
  datatype Round = Short(p: string) | Mismatch(p: string, retyped: string)

  function Answers(r: Round): seq<string> {
    match r
    case Short(p) => [p]
    case Mismatch(p, q) => [p, q]
  }

  predicate Rejected(r: Round, minLen: nat) {
    match r
    case Short(p) => |p| < minLen
    case Mismatch(p, q) => |p| >= minLen && p != q
  }

  predicate AllRejected(rs: seq<Round>, minLen: nat) {
    forall i :: 0 <= i < |rs| ==> Rejected(rs[i], minLen)
  }

  /** The answers read by a run of rounds, in order. */
  function Flatten(rs: seq<Round>): seq<string>
    decreases |rs|
  {
    if |rs| == 0 then [] else Answers(rs[0]) + Flatten(rs[1..])
  }

  /** A rejected round is read and passed over. */
  lemma SkipRound(r: Round, tail: seq<string>, minLen: nat)
    requires Rejected(r, minLen)
    ensures Choose(Answers(r) + tail, minLen) == Shift(Choose(tail, minLen), |Answers(r)|)
  {
    var e := Answers(r) + tail;
    match r
    case Short(q) =>
      assert e[0] == q && e[1..] == tail;
    case Mismatch(q, q2) =>
      assert e[0] == q && e[1] == q2 && e[2..] == tail;
  }

  lemma RejectedTail(rs: seq<Round>, minLen: nat)
    requires |rs| > 0 && AllRejected(rs, minLen)
    ensures Rejected(rs[0], minLen) && AllRejected(rs[1..], minLen)
  {
    forall i | 0 <= i < |rs[1..]| ensures Rejected(rs[1..][i], minLen) {
      assert rs[1..][i] == rs[i + 1];
    }
  }

  /** The first acceptable pair wins: after any number of rejected rounds,
      a long enough password typed twice is returned, whatever follows. */
  lemma {:induction false} FirstValidPairWins(rs: seq<Round>, p: string, rest: seq<string>, minLen: nat)
    requires AllRejected(rs, minLen)
    requires |p| >= minLen
    ensures Choose(Flatten(rs) + [p, p] + rest, minLen) == Chosen(p, |Flatten(rs)| + 2)
    decreases |rs|
  {
    if |rs| == 0 {
      assert Flatten(rs) + [p, p] + rest == [p, p] + rest;
    } else {
      var tail := Flatten(rs[1..]) + [p, p] + rest;
      RejectedTail(rs, minLen);
      FirstValidPairWins(rs[1..], p, rest, minLen);
      assert Flatten(rs) + [p, p] + rest == Answers(rs[0]) + tail;
      SkipRound(rs[0], tail, minLen);
    }
  }

  /** Conversely, every returned password comes after rejected rounds only:
      the answers read are those rounds followed by the password twice. */
  lemma {:induction false} ChosenAfterRejected(entries: seq<string>, minLen: nat) returns (rs: seq<Round>)
    requires Choose(entries, minLen).Chosen?
    ensures AllRejected(rs, minLen)
    ensures var c := Choose(entries, minLen);
      entries[..c.used] == Flatten(rs) + [c.passwd, c.passwd]
    decreases |entries|
  {
    var c := Choose(entries, minLen);
    if |entries[0]| < minLen || entries[0] != entries[1] {
      var r := if |entries[0]| < minLen then Short(entries[0]) else Mismatch(entries[0], entries[1]);
      var k := |Answers(r)|;
      var rest := entries[k..];
      assert Choose(entries, minLen) == Shift(Choose(rest, minLen), k);
      var rs' := ChosenAfterRejected(rest, minLen);
      rs := Prepend(r, rs', minLen);
      ReadAfter(entries, k, c.used);
      assert entries[..k] == Answers(r);
    } else {
      rs := [];
      assert entries[..c.used] == [entries[0], entries[1]];
    }
  }

  /** A rejected round in front of rejected rounds. */
  lemma Prepend(r: Round, rs': seq<Round>, minLen: nat) returns (rs: seq<Round>)
    requires Rejected(r, minLen) && AllRejected(rs', minLen)
    ensures AllRejected(rs, minLen)
    ensures Flatten(rs) == Answers(r) + Flatten(rs')
  {
    rs := [r] + rs';
    assert rs[1..] == rs';
  }

  lemma ReadAfter<T>(e: seq<T>, k: nat, n: nat)
    requires k <= n <= |e|
    ensures e[..n] == e[..k] + e[k..][..n - k]
  {
  }

  /** The loop runs out of answers only when they are rejected rounds,
      possibly followed by one long enough password whose retype never came. */
  lemma {:induction false} ExhaustedAfterRejected(entries: seq<string>, minLen: nat) returns (rs: seq<Round>, last: seq<string>)
    requires Choose(entries, minLen).Exhausted?
    ensures AllRejected(rs, minLen)
    ensures entries == Flatten(rs) + last
    ensures |last| <= 1 && (|last| == 1 ==> |last[0]| >= minLen)
    decreases |entries|
  {
    if |entries| == 0 {
      rs, last := [], [];
    } else if |entries[0]| >= minLen && |entries| == 1 {
      rs, last := [], entries;
    } else {
      var r := if |entries[0]| < minLen then Short(entries[0]) else Mismatch(entries[0], entries[1]);
      var k := |Answers(r)|;
      var rest := entries[k..];
      assert Choose(entries, minLen) == Shift(Choose(rest, minLen), k);
      var rs';
      rs', last := ExhaustedAfterRejected(rest, minLen);
      rs := Prepend(r, rs', minLen);
      assert entries == entries[..k] + rest;
      assert entries[..k] == Answers(r);
    }
  }

  /** Rejected rounds alone, or followed by one unretyped password, leave
      the loop without a password. */
  lemma {:induction false} RejectedRunsOut(rs: seq<Round>, last: seq<string>, minLen: nat)
    requires AllRejected(rs, minLen)
    requires |last| <= 1
    ensures Choose(Flatten(rs) + last, minLen) == Exhausted
    decreases |rs|
  {
    if |rs| == 0 {
      assert Flatten(rs) + last == last;
    } else {
      var tail := Flatten(rs[1..]) + last;
      RejectedTail(rs, minLen);
      RejectedRunsOut(rs[1..], last, minLen);
      assert Flatten(rs) + last == Answers(rs[0]) + tail;
      SkipRound(rs[0], tail, minLen);
    }
  }
}

=== FILE: cert_template.dfy ===
/** The certificate template `notebook_setup` writes to `cert.cfg` before it
    asks certtool for a self-signed certificate: one `key = value` line per
    entry of a dictionary, skipping entries whose value is `None`.  The
    dictionary's iteration order is not fixed by Python 2, so the entries are
    a sequence in whatever order the caller supplies, and the properties
    below hold for every order. */
module CertTemplate {
  import opened Text

  /** The values the template dictionary can hold. */
  datatype Value =
    | Absent                  // Python's None
    | Bool(b: bool)
    | Int(n: int)
    | Str(s: string)
    | List(items: seq<string>)

  type Entry = (string, Value)

  /** Python's `val == True`, which also holds for the integer 1. */
  predicate EqualsTrue(v: Value) {
    v == Bool(true) || v == Int(1)
  }

  /** `'"%s"' % x`. */
  function Quote(x: string): string { "\"" + x + "\"" }

  /** `' '.join(['"%s"' % x for x in items])`. */
  function QuotedItems(items: seq<string>): string
    decreases |items|
  {
    if |items| == 0 then ""
    else if |items| == 1 then Quote(items[0])
    else QuotedItems(items[..|items| - 1]) + " " + Quote(items[|items| - 1])
  }

  /** The text after `key = `: nothing for a flag equal to `True`, the
      quoted items for a list, the quoted value otherwise. */
  function Word(v: Value): (w: string)
    requires !v.Absent?
    ensures EqualsTrue(v) ==> w == ""
    ensures !EqualsTrue(v) && !v.List? ==> |w| >= 2 && w[0] == '"' && w[|w| - 1] == '"'
  {
    if EqualsTrue(v) then ""
    else
      match v
      case List(items) => QuotedItems(items)
      case Bool(b) => Quote(if b then "True" else "False")
      case Int(n) => Quote(IntString(n))
      case Str(s) => Quote(s)
  }

  /** `'%s = %s \n' % (key, w)`. */
  function Line(key: string, v: Value): string
    requires !v.Absent?
  {
    key + " = " + Word(v) + " \n"
  }

  /** The pieces a line of list items splits into at its double quotes:
      the items, with a single space between neighbours. */
  function ItemParts(items: seq<string>): (r: seq<string>)
    requires |items| > 0
    ensures |r| == 2 * |items| - 1
    ensures forall k :: 0 <= k < |items| ==> r[2 * k] == items[k]
    ensures forall i :: 0 <= i < |r| && i % 2 == 1 ==> r[i] == " "
    decreases |items|
  {
    if |items| == 1 then [items[0]]
    else ItemParts(items[..|items| - 1]) + [" ", items[|items| - 1]]
  }

  /** A line with one quoted word splits at its double quotes into the key
      part, the word and the line end. */
  lemma QuotedLineFields(key: string, x: string)
    requires '"' !in key && '"' !in x
    ensures Split(key + " = " + Quote(x) + " \n", '"') == [key + " = ", x, " \n"]
  {
    var pre, post, q := key + " = ", " \n", ['"'];
    Unquoted(key);
    assert Quote(x) == q + x + q;
    Assoc(pre, q + x, q);
    Assoc(pre, q, x);
    assert pre + Quote(x) == pre + q + x + q;
    SplitThree(pre, x, post, '"');
  }

  /** A string value is read back from its line as the text between the
      quotes. */
  lemma StrLineFields(key: string, s: string)
    requires '"' !in key && '"' !in s
    ensures Split(Line(key, Str(s)), '"') == [key + " = ", s, " \n"]
  {
    QuotedLineFields(key, s);
  }

  /** An integer other than 1 is read back from its line as its decimal
      text between the quotes. */
  lemma IntLineFields(key: string, n: int)
    requires '"' !in key && n != 1
    ensures Split(Line(key, Int(n)), '"') == [key + " = ", IntString(n), " \n"]
  {
    IntStringHasNo(n, '"');
    QuotedLineFields(key, IntString(n));
  }

  /** `False` is written as the quoted word `False`. */
  lemma FalseLineFields(key: string)
    requires '"' !in key
    ensures Split(Line(key, Bool(false)), '"') == [key + " = ", "False", " \n"]
  {
    QuotedLineFields(key, "False");
  }

  /** A value equal to `True` (the integer 1 included) and an empty list
      write a bare `key =` line with no quotes at all. */
  lemma FlagLine(key: string, v: Value)
    requires '"' !in key
    requires EqualsTrue(v) || v == List([])
    ensures Line(key, v) == key + " =  \n"
    ensures Split(Line(key, v), '"') == [Line(key, v)]
  {
    Unquoted(key);
    assert key + " =  \n" == key + " = " + " \n";
  }

  /** The fixed text of a line holds no double quote. */
  lemma Unquoted(key: string)
    requires '"' !in key
    ensures '"' !in key + " = " && '"' !in " \n" && '"' !in key + " = " + " \n"
  {
    assert '"' !in " = ";
    assert '"' !in " \n";
  }

  /** The quoted items between `pre` and `post` split into `pre`, the items
      with single spaces between them, and `post`. */
  lemma {:induction false} SplitQuotedItems(pre: string, items: seq<string>, post: string)
    requires '"' !in pre && '"' !in post && |items| > 0
    requires forall k :: 0 <= k < |items| ==> '"' !in items[k]
    ensures Split(pre + QuotedItems(items) + post, '"') == [pre] + ItemParts(items) + [post]
    decreases |items|
  {
    var n := |items|;
    var last := items[n - 1];
    var q := ['"'];
    assert Quote(last) == q + last + q;
    if n == 1 {
      Assoc(pre, q + last, q);
      Assoc(pre, q, last);
      assert pre + QuotedItems(items) == pre + q + last + q;
      SplitThree(pre, last, post, '"');
    } else {
      var init := items[..n - 1];
      var a := QuotedItems(init);
      var x := pre + a + " ";
      var y := last + q + post;
      assert QuotedItems(items) == a + " " + Quote(last);
      QuotedTail(pre, a, last, post);
      assert pre + QuotedItems(items) + post == x + q + y;
      assert forall k :: 0 <= k < |init| ==> init[k] == items[k];
      SplitQuotedItems(pre, init, " ");
      SplitAppend(x, '"', y);
      SplitAfter(last, '"', post);
      assert Split(post, '"') == [post];
      assert ItemParts(items) == ItemParts(init) + [" ", last];
      Regroup(pre, ItemParts(init), " ", last, post);
    }
  }

  lemma Regroup<T>(a: T, m: seq<T>, s: T, l: T, b: T)
    ensures [a] + m + [s] + ([l] + [b]) == [a] + (m + [s, l]) + [b]
  {
  }

  lemma QuotedTail(pre: string, a: string, last: string, post: string)
    ensures pre + (a + " " + (['"'] + last + ['"'])) + post
         == pre + a + " " + ['"'] + (last + ['"'] + post)
  {
  }

  /** A list is read back from its line as the words between the quotes:
      the `k`-th item stands at index `2 * k + 1`, a single space between
      neighbours, the key part before and the line end after. */
  lemma ListLineFields(key: string, items: seq<string>)
    requires '"' !in key && |items| > 0
    requires forall k :: 0 <= k < |items| ==> '"' !in items[k]
    ensures Split(Line(key, List(items)), '"') == [key + " = "] + ItemParts(items) + [" \n"]
  {
    Unquoted(key);
    SplitQuotedItems(key + " = ", items, " \n");
  }

  /** The line an entry contributes: none for `None`, one otherwise. */
  function LineOf(e: Entry): (r: seq<string>)
    ensures |r| == if e.1.Absent? then 0 else 1
  {
    if e.1.Absent? then [] else [Line(e.0, e.1)]
  }

  /** `f` applied to each of the first `k` elements of `s`, the results
      concatenated in order. */
  function FlatUpTo<T, U>(f: T -> seq<U>, s: seq<T>, k: nat): seq<U>
    requires k <= |s|
    decreases k
  {
    if k == 0 then [] else FlatUpTo(f, s, k - 1) + f(s[k - 1])
  }

  function Flat<T, U>(f: T -> seq<U>, s: seq<T>): seq<U> {
    FlatUpTo(f, s, |s|)
  }

  /** The lines written for the entries, in the order of the entries. */
  function Lines(entries: seq<Entry>): seq<string> {
    Flat(LineOf, entries)
  }

  function Concat<T>(parts: seq<seq<T>>): seq<T>
    decreases |parts|
  {
    if |parts| == 0 then [] else Concat(parts[..|parts| - 1]) + parts[|parts| - 1]
  }

  /** The text of `cert.cfg`. */
  function Render(entries: seq<Entry>): string {
    Concat(Lines(entries))
  }

  /** Number of entries among the first `k` whose value is not `None`. */
  function PresentUpTo(entries: seq<Entry>, k: nat): nat
    requires k <= |entries|
    decreases k
  {
    if k == 0 then 0 else PresentUpTo(entries, k - 1) + (if entries[k - 1].1.Absent? then 0 else 1)
  }

  function Present(entries: seq<Entry>): nat {
    PresentUpTo(entries, |entries|)
  }

  /** The rendering loop of `notebook_setup`: `s += line` for every entry
      that is not `None`. */
  method RenderTemplate(entries: seq<Entry>) returns (s: string)
    ensures s == Render(entries)
  {
    s := "";
    var i := 0;
    while i < |entries|
      invariant i <= |entries|
      invariant s == Concat(FlatUpTo(LineOf, entries, i))
    {
      var (key, val) := entries[i];
      RenderStep(entries, i);
      if val != Absent {
        s := s + (key + " = " + Word(val) + " \n");
      }
      i := i + 1;
    }
  }

  lemma RenderStep(entries: seq<Entry>, i: nat)
    requires i < |entries|
    ensures Concat(FlatUpTo(LineOf, entries, i + 1))
         == Concat(FlatUpTo(LineOf, entries, i)) + (if entries[i].1.Absent? then "" else Line(entries[i].0, entries[i].1))
  {
    ConcatAppend(FlatUpTo(LineOf, entries, i), LineOf(entries[i]));
    if !entries[i].1.Absent? {
      assert Concat(LineOf(entries[i])) == Line(entries[i].0, entries[i].1) by {
        assert LineOf(entries[i])[..0] == [];
      }
    }
  }

  lemma {:induction false} ConcatAppend<T>(a: seq<seq<T>>, b: seq<seq<T>>)
    ensures Concat(a + b) == Concat(a) + Concat(b)
    decreases |b|
  {
    if |b| == 0 {
      assert a + b == a;
    } else {
      ConcatAppend(a, b[..|b| - 1]);
      assert (a + b)[..|a + b| - 1] == a + b[..|b| - 1];
    }
  }

  lemma {:induction false} FlatPrefix<T, U>(f: T -> seq<U>, a: seq<T>, b: seq<T>, k: nat)
    requires k <= |a|
    ensures FlatUpTo(f, a + b, k) == FlatUpTo(f, a, k)
    decreases k
  {
    if k > 0 {
      FlatPrefix(f, a, b, k - 1);
      assert (a + b)[k - 1] == a[k - 1];
    }
  }

  lemma {:induction false} FlatAppendUpTo<T, U>(f: T -> seq<U>, a: seq<T>, b: seq<T>, k: nat)
    requires k <= |b|
    ensures FlatUpTo(f, a + b, |a| + k) == Flat(f, a) + FlatUpTo(f, b, k)
    decreases k
  {
    if k == 0 {
      FlatPrefix(f, a, b, |a|);
    } else {
      FlatAppendUpTo(f, a, b, k - 1);
      assert (a + b)[|a| + k - 1] == b[k - 1];
    }
  }

  lemma FlatAppend<T, U>(f: T -> seq<U>, a: seq<T>, b: seq<T>)
    ensures Flat(f, a + b) == Flat(f, a) + Flat(f, b)
  {
    FlatAppendUpTo(f, a, b, |b|);
  }

  lemma FlatSingle<T, U>(f: T -> seq<U>, x: T)
    ensures Flat(f, [x]) == f(x)
  {
    assert FlatUpTo(f, [x], 1) == FlatUpTo(f, [x], 0) + f(x);
  }

  /** Reordering the elements reorders the concatenated results and
      changes nothing else. */
  lemma {:induction false} FlatPermutation<T, U>(f: T -> seq<U>, e1: seq<T>, e2: seq<T>)
    requires multiset(e1) == multiset(e2)
    ensures multiset(Flat(f, e1)) == multiset(Flat(f, e2))
    decreases |e1|
  {
    if |e1| == 0 {
      assert |e2| == |multiset(e2)| == |multiset(e1)| == 0;
      assert e2 == [];
    } else {
      var n := |e1| - 1;
      var x := e1[n];
      var init := e1[..n];
      assert e1 == init + [x];
      var j := PickOut(init, x, e2);
      var left, right := e2[..j], e2[j + 1..];
      FlatPermutation(f, init, left + right);
      FlatAppend(f, init, [x]);
      FlatSingle(f, x);
      FlatWithout(f, left, x, right);
      assert e2 == left + [x] + right;
    }
  }

  /** Where `x` sits in a reordering `e2` of `init + [x]`, and what is left. */
  lemma PickOut<T>(init: seq<T>, x: T, e2: seq<T>) returns (j: nat)
    requires multiset(init + [x]) == multiset(e2)
    ensures j < |e2| && e2[j] == x
    ensures multiset(init) == multiset(e2[..j] + e2[j + 1..])
  {
    assert x in multiset(init + [x]) by { assert (init + [x])[|init|] == x; }
    j :| 0 <= j < |e2| && e2[j] == x;
    RemoveAt(init, x, e2, j);
  }

  lemma RemoveAt<T>(init: seq<T>, x: T, e2: seq<T>, j: nat)
    requires multiset(init + [x]) == multiset(e2)
    requires j < |e2| && e2[j] == x
    ensures multiset(init) == multiset(e2[..j] + e2[j + 1..])
  {
    var left, right := e2[..j], e2[j + 1..];
    assert e2 == left + [x] + right;
    var m := multiset(left + right);
    assert multiset(e2) == m + multiset{x};
    assert multiset(init + [x]) == multiset(init) + multiset{x};
    assert multiset(init) == multiset(init) + multiset{x} - multiset{x};
    assert m == m + multiset{x} - multiset{x};
  }

  /** The results for `left + [x] + right` are those for `left + right` and `f(x)`. */
  lemma FlatWithout<T, U>(f: T -> seq<U>, left: seq<T>, x: T, right: seq<T>)
    ensures multiset(Flat(f, left + [x] + right)) == multiset(Flat(f, left + right)) + multiset(f(x))
  {
    FlatAppend(f, left, [x]);
    FlatAppend(f, left + [x], right);
    FlatAppend(f, left, right);
    FlatSingle(f, x);
  }

  /** Rendering is compositional: the text for two runs of entries is the
      text for the first followed by the text for the second. */
  lemma RenderAppend(a: seq<Entry>, b: seq<Entry>)
    ensures Render(a + b) == Render(a) + Render(b)
  {
    FlatAppend(LineOf, a, b);
    ConcatAppend(Lines(a), Lines(b));
  }

  lemma {:induction false} LineCountUpTo(entries: seq<Entry>, k: nat)
    requires k <= |entries|
    ensures |FlatUpTo(LineOf, entries, k)| == PresentUpTo(entries, k)
    decreases k
  {
    if k > 0 {
      LineCountUpTo(entries, k - 1);
    }
  }

  /** One line per entry that is not `None`, and no other. */
  lemma LineCount(entries: seq<Entry>)
    ensures |Lines(entries)| == Present(entries)
  {
    LineCountUpTo(entries, |entries|);
  }

  /** Entry `e` writes line `l`. */
  predicate Writes(e: Entry, l: string) {
    !e.1.Absent? && l == Line(e.0, e.1)
  }

  lemma {:induction false} MembershipUpTo<T, U>(f: T -> seq<U>, s: seq<T>, k: nat, l: U)
    requires k <= |s|
    ensures l in FlatUpTo(f, s, k) <==> exists i :: 0 <= i < k && l in f(s[i])
    decreases k
  {
    if k > 0 {
      MembershipUpTo(f, s, k - 1, l);
      if exists i :: 0 <= i < k && l in f(s[i]) {
        var i :| 0 <= i < k && l in f(s[i]);
        if i < k - 1 {
          assert l in FlatUpTo(f, s, k - 1);
        }
      }
    }
  }

  /** The lines written are exactly the lines of the entries that are not
      `None`. */
  lemma LineMembership(entries: seq<Entry>, l: string)
    ensures l in Lines(entries) <==> exists i :: 0 <= i < |entries| && Writes(entries[i], l)
  {
    MembershipUpTo(LineOf, entries, |entries|, l);
    assert forall i :: 0 <= i < |entries| ==> (l in LineOf(entries[i]) <==> Writes(entries[i], l));
  }

  /** The order in which the dictionary hands out its entries changes the
      order of the lines and nothing else. */
  lemma LinesPermutation(e1: seq<Entry>, e2: seq<Entry>)
    requires multiset(e1) == multiset(e2)
    ensures multiset(Lines(e1)) == multiset(Lines(e2))
  {
    FlatPermutation(LineOf, e1, e2);
  }

  /** No line break inside a key or a rendered value. */
  predicate OneLine(e: Entry) {
    NoNewline(e.0) && (!e.1.Absent? ==> NoNewline(Word(e.1)))
  }

  /** The line an entry writes holds one line break, at its end. */
  lemma LineBreakOf(e: Entry)
    requires OneLine(e)
    ensures Count(Concat(LineOf(e)), '\n') == if e.1.Absent? then 0 else 1
  {
    if !e.1.Absent? {
      var body := e.0 + " = " + Word(e.1) + " ";
      assert Concat(LineOf(e)) == body + "\n" by {
        assert LineOf(e)[..0] == [];
      }
      CountAbsent(body, '\n');
      CountAppend(body, "\n", '\n');
      assert Count("\n", '\n') == 1 by { assert "\n"[..0] == ""; }
    }
  }

  lemma {:induction false} LineBreaksUpTo(entries: seq<Entry>, k: nat)
    requires k <= |entries|
    requires forall i :: 0 <= i < |entries| ==> OneLine(entries[i])
    ensures Count(Concat(FlatUpTo(LineOf, entries, k)), '\n') == PresentUpTo(entries, k)
    decreases k
  {
    if k > 0 {
      LineBreaksUpTo(entries, k - 1);
      LineBreakStep(entries, k);
    }
  }

  lemma LineBreakStep(entries: seq<Entry>, k: nat)
    requires 0 < k <= |entries|
    requires forall i :: 0 <= i < |entries| ==> OneLine(entries[i])
    ensures Count(Concat(FlatUpTo(LineOf, entries, k)), '\n')
         == Count(Concat(FlatUpTo(LineOf, entries, k - 1)), '\n') + (if entries[k - 1].1.Absent? then 0 else 1)
  {
    var prev, last := FlatUpTo(LineOf, entries, k - 1), LineOf(entries[k - 1]);
    LineBreakOf(entries[k - 1]);
    ConcatAppend(prev, last);
    CountAppend(Concat(prev), Concat(last), '\n');
  }

  /** Each entry that is not `None` ends exactly one line of the file. */
  lemma LineBreaks(entries: seq<Entry>)
    requires forall i :: 0 <= i < |entries| ==> OneLine(entries[i])
    ensures Count(Render(entries), '\n') == Present(entries)
  {
    LineBreaksUpTo(entries, |entries|);
  }

  /** `raw_input("Domain name [localhost]: ").strip()`, with `localhost`
      for a blank answer. */
  function DomainName(answer: string): (dn: string)
    ensures dn != ""
    ensures |dn| > 0 ==> !IsSpace(dn[0]) && !IsSpace(dn[|dn| - 1])
    ensures (forall i :: 0 <= i < |answer| ==> IsSpace(answer[i])) ==> dn == "localhost"
    ensures !(forall i :: 0 <= i < |answer| ==> IsSpace(answer[i])) ==> dn == Strip(answer)
  {
    var s := Strip(answer);
    if s == "" then "localhost" else s
  }

  /** Giving the chosen domain name as the answer chooses it again. */
  lemma DomainNameStable(answer: string)
    ensures DomainName(DomainName(answer)) == DomainName(answer)
  {
    StripTrimmed(DomainName(answer));
  }

  /** The template dictionary of `notebook_setup`, in the order it is written
      in the source.  `serial` is the random number drawn for the
      certificate, between 1 and 2^31. */
  function TemplateEntries(dn: string, serial: nat): (r: seq<Entry>)
    ensures |r| == 19
  {
    [ ("organization", Str("SAGE (at " + dn + ")")),
      ("unit", Str("389")),
      ("locality", Absent),
      ("state", Str("Washington")),
      ("country", Str("US")),
      ("cn", Str(dn)),
      ("uid", Str("sage_user")),
      ("dn_oid", Absent),
      ("serial", Str(Decimal(serial))),
      ("dns_name", Absent),
      ("crl_dist_points", Absent),
      ("ip_address", Absent),
      ("expiration_days", Int(10000)),
      ("email", Str("sage@sagemath.org")),
      ("ca", Absent),
      ("tls_www_client", Absent),
      ("tls_www_server", Bool(true)),
      ("signing_key", Bool(true)),
      ("encryption_key", Bool(true)) ]
  }

  /** The entries form a dictionary: no key is given twice, so `cn` holds
      the domain name and `serial` the decimal serial, whatever the order. */
  lemma TemplateKeys(dn: string, serial: nat)
    ensures var t := TemplateEntries(dn, serial);
      && (forall i, j :: 0 <= i < j < |t| ==> t[i].0 != t[j].0)
      && (forall i :: 0 <= i < |t| && t[i].0 == "cn" ==> t[i].1 == Str(dn))
      && (forall i :: 0 <= i < |t| && t[i].0 == "serial" ==> t[i].1 == Str(Decimal(serial)))
  {
  }

  /** Twelve of the nineteen entries are not `None`. */
  lemma TemplatePresent(dn: string, serial: nat)
    ensures Present(TemplateEntries(dn, serial)) == 12
  {
    var t := TemplateEntries(dn, serial);
    assert PresentUpTo(t, 3) == 2;
    assert PresentUpTo(t, 6) == 5;
    assert PresentUpTo(t, 9) == 7;
    assert PresentUpTo(t, 12) == 7;
    assert PresentUpTo(t, 15) == 9;
    assert PresentUpTo(t, 18) == 11;
  }

  /** Reordering the entries keeps the number of lines and the set of lines. */
  lemma ReorderedLines(order: seq<Entry>, t: seq<Entry>, l: string)
    requires multiset(order) == multiset(t)
    ensures |Lines(order)| == Present(t)
    ensures l in Lines(order) <==> exists i :: 0 <= i < |t| && Writes(t[i], l)
  {
    LinesPermutation(order, t);
    LineCount(t);
    LineMembership(t, l);
    assert |multiset(Lines(order))| == |multiset(Lines(t))|;
    assert l in Lines(order) <==> l in multiset(Lines(order));
    assert l in Lines(t) <==> l in multiset(Lines(t));
  }

  /** The entry for the common name and the `tls_www_server` flag. */
  lemma TemplateWrites(dn: string, serial: nat)
    ensures Writes(TemplateEntries(dn, serial)[5], Line("cn", Str(dn)))
    ensures Writes(TemplateEntries(dn, serial)[16], Line("tls_www_server", Bool(true)))
  {
    var t := TemplateEntries(dn, serial);
    assert t[5] == ("cn", Str(dn));
    assert t[16] == ("tls_www_server", Bool(true));
  }

  /** A flag equal to `True` is written with nothing after the `=`. */
  lemma BareFlag(key: string)
    ensures Line(key, Bool(true)) == key + " =  \n"
  {
  }

  /** The written template has twelve lines, whatever order the dictionary
      yields its entries in; the common name is the domain name and the
      `tls_www_server` flag is written bare (see `BareFlag`). */
  lemma TemplateShape(dn: string, serial: nat, order: seq<Entry>)
    requires multiset(order) == multiset(TemplateEntries(dn, serial))
    ensures |Lines(order)| == 12
    ensures Line("cn", Str(dn)) in Lines(order)
    ensures Line("tls_www_server", Bool(true)) in Lines(order)
  {
    var t := TemplateEntries(dn, serial);
    TemplatePresent(dn, serial);
    TemplateWrites(dn, serial);
    ReorderedLines(order, t, Line("cn", Str(dn)));
    ReorderedLines(order, t, Line("tls_www_server", Bool(true)));
  }
}

=== FILE: launch_params.dfy ===
/** The checks `notebook_run` makes on its arguments before it touches the
    notebook store: parameters that are no longer supported, and the
    normalisation of the notebook directory into the directory to enter and
    the name of the notebook directory within it. */
module LaunchParams {
  import opened Wrappers
  import opened Text
  import opened Paths

  /** Which of the withdrawn keyword arguments were given a value other than
      `None`. */
  datatype LegacyArgs = LegacyArgs(subnets: bool, requireLogin: bool, openViewer: bool, address: bool)

  /** The `ValueError` raised for a withdrawn argument, by its message. */
  datatype LegacyError =
    | SubnetsUnsupported
    | LoginOptionsUnsupported
    | AddressRenamed

  predicate AnyLegacy(a: LegacyArgs) {
    a.subnets || a.requireLogin || a.openViewer || a.address
  }

  /** The three checks in the order the launcher makes them; the first one
      that applies decides the error. */
  function CheckLegacy(a: LegacyArgs): (r: Option<LegacyError>)
    ensures r.None? <==> !AnyLegacy(a)
    ensures r == Some(SubnetsUnsupported) <==> a.subnets
    ensures r == Some(LoginOptionsUnsupported) <==> !a.subnets && (a.requireLogin || a.openViewer)
    ensures r == Some(AddressRenamed) <==> !a.subnets && !a.requireLogin && !a.openViewer && a.address
  {
    if a.subnets then Some(SubnetsUnsupported)
    else if a.requireLogin || a.openViewer then Some(LoginOptionsUnsupported)
    else if a.address then Some(AddressRenamed)
    else None
  }

  /** Where the launcher runs the notebook from: the directory it changes
      into first (`None` when the path has no directory part) and the name of
      the notebook directory it then loads. */
  datatype DirPlan = DirPlan(enter: Option<string>, name: string)

  const DefaultName: string := "sage_notebook"

  /** The directory argument after the default and the trailing-slash rule:
      no argument means `DOT_SAGENB/sage_notebook`; an argument loses one
      trailing slash, if it has one, and nothing else. */
  function DirectoryPath(directory: Option<string>, dotSagenb: string): (d: string)
    ensures directory.None? ==> d == dotSagenb + "/sage_notebook"
    ensures directory.Some? ==> var s := directory.value;
      && |s| - 1 <= |d| <= |s|
      && d == s[..|d|]
      && (|d| < |s| <==> |s| > 0 && s[|s| - 1] == '/')
  {
    match directory
    case None => dotSagenb + "/" + DefaultName
    case Some(s) =>
      if |s| > 0 && s[|s| - 1] == '/' then s[..|s| - 1] else s
  }

  /** The directory to enter and the notebook's name, from `os.path.split`
      of the normalised path. */
  function NormaliseDirectory(directory: Option<string>, dotSagenb: string): (r: DirPlan)
    ensures NoSlash(r.name)
    ensures r.enter.Some? ==> r.enter.value != ""
  {
    var (head, tail) := PathSplit(DirectoryPath(directory, dotSagenb));
    DirPlan(if head != "" then Some(head) else None, tail)
  }

  /** What `NormaliseDirectory` makes of the normalised path `d`: the name is
      the text after the last slash of `d`, and a directory is entered
      exactly when `d` has a slash. */
  lemma NormaliseDirectoryName(directory: Option<string>, dotSagenb: string)
    ensures var d := DirectoryPath(directory, dotSagenb);
      var r := NormaliseDirectory(directory, dotSagenb);
      && |r.name| <= |d| && d[|d| - |r.name|..] == r.name
      && (|r.name| < |d| ==> d[|d| - |r.name| - 1] == '/')
      && (r.enter.None? <==> NoSlash(d))
  {
    var d := DirectoryPath(directory, dotSagenb);
    PathSplitShape(d);
    var (head, tail) := PathSplit(d);
    if head == "" {
      assert |d[..|d| - |tail|]| == 0;
    }
  }

  /** The directory entered is the text of `d` before the name without its
      trailing slashes, unless that text is all slashes. */
  lemma NormaliseDirectoryEnter(directory: Option<string>, dotSagenb: string)
    ensures var d := DirectoryPath(directory, dotSagenb);
      var r := NormaliseDirectory(directory, dotSagenb);
      var h := d[..|d| - |NormaliseDirectory(directory, dotSagenb).name|];
      r.enter.Some? ==>
        && |r.enter.value| <= |h| && r.enter.value == h[..|r.enter.value|]
        && (forall j :: |r.enter.value| <= j < |h| ==> h[j] == '/')
        && (AllSlashes(h) <==> r.enter.value == h)
        && (!AllSlashes(h) ==> r.enter.value[|r.enter.value| - 1] != '/')
  {
    PathSplitShape(DirectoryPath(directory, dotSagenb));
  }

  /** Exactly one trailing slash is dropped: `d/` names the same notebook as `d`. */
  lemma TrailingSlashDropped(d: string, dotSagenb: string)
    requires |d| == 0 || d[|d| - 1] != '/'
    ensures NormaliseDirectory(Some(d + "/"), dotSagenb) == NormaliseDirectory(Some(d), dotSagenb)
  {
    assert (d + "/")[..|d|] == d;
  }

  /** A second trailing slash is kept, and the notebook name comes out empty. */
  lemma SecondSlashKept(d: string, dotSagenb: string)
    ensures NormaliseDirectory(Some(d + "//"), dotSagenb).name == ""
  {
    var s := d + "//";
    assert DirectoryPath(Some(s), dotSagenb) == d + "/";
    assert (d + "/")[|d|] == '/';
  }

  /** Without a directory argument the launcher enters `DOT_SAGENB` and
      loads `sage_notebook`. */
  lemma DefaultDirectory(dotSagenb: string)
    requires dotSagenb != "" && dotSagenb[|dotSagenb| - 1] != '/'
    ensures NormaliseDirectory(None, dotSagenb) == DirPlan(Some(dotSagenb), DefaultName)
  {
    var p := dotSagenb + "/" + DefaultName;
    var (head, tail) := PathSplit(p);
    PathSplitShape(p);
    assert p[|dotSagenb|] == '/';
    assert NoSlash(DefaultName);
    assert |tail| == |DefaultName|;
    assert tail == DefaultName;
    var h := p[..|p| - |tail|];
    assert h == dotSagenb + "/";
    assert !AllSlashes(h) by { assert h[|h| - 2] != '/'; }
    assert |head| + 1 == |h| by {
      assert h[|h| - 2] == dotSagenb[|dotSagenb| - 1];
    }
  }

  /** A path `parent/name` with a plain last component: the launcher enters
      `parent` and loads `name`. */
  lemma ParentAndName(parent: string, name: string, dotSagenb: string)
    requires parent != "" && parent[|parent| - 1] != '/'
    requires name != "" && NoSlash(name)
    ensures NormaliseDirectory(Some(parent + "/" + name), dotSagenb) == DirPlan(Some(parent), name)
  {
    var p := parent + "/" + name;
    assert DirectoryPath(Some(p), dotSagenb) == p;
    var (head, tail) := PathSplit(p);
    PathSplitShape(p);
    assert p[|parent|] == '/';
    assert |tail| == |name|;
    assert tail == name;
    var h := p[..|p| - |tail|];
    assert h == parent + "/";
    assert !AllSlashes(h) by { assert h[|h| - 2] != '/'; }
    assert |head| + 1 == |h| by {
      assert h[|h| - 2] == parent[|parent| - 1];
    }
  }
}

=== FILE: launcher.dfy ===
/** `notebook_run` as a whole: from the launch parameters and the answers of
    its collaborators (the file system, the notebook store, the user at the
    terminal, Twisted's PID check, the operating system) to the sequence of
    effects it performs and how it ends.  Effects are recorded, not
    performed; what the collaborators answer is part of the environment. */
module Launcher {
  import opened Wrappers
  import opened Text
  import opened Paths
  import opened SettingsFormat
  import opened LaunchParams
  import opened CertTemplate
  import opened AdminPassword
  import opened ServerConfig

  /** The arguments of `notebook_run` the modelled logic depends on. */
  datatype Params = Params(
    directory: Option<string>,
    iface: string,
    secure: bool,
    reset: bool,
    automaticLogin: bool,
    fork: bool,
    server: string,
    legacy: LegacyArgs)

  /** What Twisted's `checkPID` reports for the PID file in the notebook
      directory: nothing, another server running (it exits with a message
      starting `Another twistd server is running,`), or an exit with some
      other message. */
  datatype PidCheck = NoServer | OtherServer(pid: int) | OtherExit

  /** The answers of the collaborators. */
  datatype Env = Env(
    dotSagenb: string,          // DOT_SAGENB
    cwd: string,                // the working directory at the call
    notebookDir: string,        // the loaded notebook's directory (`nb._dir`)
    absDir: string,             // `os.path.abspath` of that directory
    adminExists: bool,          // the store has a user `admin`
    rootExists: bool,           // the store has a user `root`
    answers: seq<string>,       // what is typed at the password prompts
    minLen: nat,                // `min_password_length`
    freePort: nat,              // what `find_next_available_port` returns
    pemsPresent: bool,          // both `private.pem` and `public.pem` exist
    domainAnswer: Option<string>, // what is typed at the domain-name prompt; `None` at end of input
    serial: nat,                // the random certificate serial
    pidCheck: PidCheck,
    oldConf: Option<string>,    // the text of `twistedconf.tac`, if readable
    exitStatus: int)            // what `os.system` returns for the server

  /** What a generated server configuration records about the server:
      the settings text is `NotebookOpts(absDir, iface, port, secure)`, the
      browser statement `OpenPage(automaticLogin, iface, port, secure)`. */
  datatype Written = Written(absDir: string, iface: string, port: nat, secure: bool, automaticLogin: bool)

  function OptsText(w: Written): string { NotebookOpts(w.absDir, w.iface, w.port, w.secure) }

  datatype Server = Flask | Twistd

  /** A server command line: Flask's with its configuration, Twisted's with
      its PID file and configuration. */
  datatype Cmd = FlaskCmd(conf: string) | TwistdCmd(pidfile: string, conf: string)

  function CommandLine(c: Cmd): string {
    match c
    case FlaskCmd(conf) => FlaskCommand(conf)
    case TwistdCmd(pidfile, conf) => TwistdCommand(pidfile, conf)
  }

  /** The configuration a command runs is the one its text names: the last
      space-separated word of Flask's, the second double-quoted word of
      Twisted's, after the PID file. */
  lemma CommandNamesConfig(c: Cmd)
    requires c.FlaskCmd? ==> ' ' !in c.conf
    requires c.TwistdCmd? ==> '"' !in c.pidfile && '"' !in c.conf
    ensures c.FlaskCmd? ==> Split(CommandLine(c), ' ') == ["python", "", c.conf]
    ensures c.TwistdCmd? ==> var parts := Split(CommandLine(c), '"');
      |parts| == 5 && parts[1] == c.pidfile && parts[3] == c.conf
  {
    match c
    case FlaskCmd(conf) => FlaskCommandFields(conf);
    case TwistdCmd(pidfile, conf) => TwistdCommandFields(pidfile, conf);
  }

  datatype Effect =
    | EnterDirectory(path: string)
    | CopyRootPassword                            // admin gets root's password
    | SetAdminPassword(passwd: string)
    /** Writes `CertTemplate.Render` of some ordering of
        `TemplateEntries(domain, serial)`: a permutation of the dictionary,
        whose lines `ReorderedLines` and `TemplateShape` describe. */
    | WriteCertTemplate(path: string, domain: string, serial: nat)
    | GenerateCertificate
    | WriteConfig(path: string, server: Server, written: Written)
    | Browse(host: string, port: string, secure: bool)
    | RunCommand(cmd: Cmd)
    | SpawnCommand(cmd: Cmd)
    | ReturnToDirectory(path: string)

  datatype Failure =
    | Withdrawn(err: LegacyError)   // a `ValueError` for a withdrawn argument
    | PasswordInputEnded            // the password prompts ran out of answers
    | DomainInputEnded              // end of input at the domain-name prompt (`EOFError`)
    | UnknownServer                 // `cmd` is never bound
    | SocketError                   // the server exited with status 256

  datatype Outcome =
    | Finished                      // the server ran in the foreground and exited
    | Spawned(cmd: Cmd)             // the server runs in a child process
    | AlreadyRunning                // another server owns the directory
    | Failed(failure: Failure)

  datatype Launch = Launch(effects: seq<Effect>, outcome: Outcome)

  /** The effects that prepare a launch, before any server step. */
  predicate Preparatory(e: Effect) {
    e.EnterDirectory? || e.CopyRootPassword? || e.SetAdminPassword? || e.WriteCertTemplate? || e.GenerateCertificate?
  }

  predicate AllPreparatory(es: seq<Effect>) {
    forall i :: 0 <= i < |es| ==> Preparatory(es[i])
  }

  /** Moving to the directory that holds the notebook directory, when the
      directory argument names one. */
  function Entering(p: Params, env: Env): (r: seq<Effect>)
    ensures |r| <= 1
    ensures r != [] <==> NormaliseDirectory(p.directory, env.dotSagenb).enter.Some?
    ensures r != [] ==> r == [EnterDirectory(NormaliseDirectory(p.directory, env.dotSagenb).enter.value)]
  {
    var plan := NormaliseDirectory(p.directory, env.dotSagenb);
    if plan.enter.Some? then [EnterDirectory(plan.enter.value)] else []
  }

  /** The password is asked for when a reset is requested or when there is
      no `admin` user, not even one copied from `root`. */
  predicate NeedsPassword(p: Params, env: Env) {
    p.reset || !(env.adminExists || env.rootExists)
  }

  /** Old stores have a `root` user but no `admin`: `admin` is created with
      `root`'s password. */
  function CopyStage(env: Env): (r: seq<Effect>)
    ensures r != [] <==> env.rootExists && !env.adminExists
    ensures r != [] ==> r == [CopyRootPassword]
  {
    if env.rootExists && !env.adminExists then [CopyRootPassword] else []
  }

  /** Asking for a new admin password when needed: `None` when the prompts
      run out before one is accepted. */
  function AdminStage(p: Params, env: Env): (r: Option<seq<Effect>>)
    ensures r.None? <==> NeedsPassword(p, env) && Choose(env.answers, env.minLen).Exhausted?
    ensures r.Some? ==> (r.value != [] <==> NeedsPassword(p, env))
    ensures r.Some? && r.value != [] ==> r.value == [SetAdminPassword(Choose(env.answers, env.minLen).passwd)]
  {
    if NeedsPassword(p, env) then
      match Choose(env.answers, env.minLen)
      case Exhausted => None
      case Chosen(pw, _) => Some([SetAdminPassword(pw)])
    else Some([])
  }

  /** The certificate set-up needs a new certificate: a secure launch
      without both key files. */
  predicate NeedsCertificate(p: Params, env: Env) {
    p.secure && !env.pemsPresent
  }

  /** The certificate set-up: the domain name is asked for, the template is
      written and certtool makes the certificate; `None` when the input ends
      at the domain-name prompt. */
  function CertStage(p: Params, env: Env): (r: Option<seq<Effect>>)
    ensures r.None? <==> NeedsCertificate(p, env) && env.domainAnswer.None?
    ensures r.Some? ==> (r.value != [] <==> NeedsCertificate(p, env))
  {
    if NeedsCertificate(p, env) then
      match env.domainAnswer
      case None => None
      case Some(answer) =>
        Some([WriteCertTemplate(TemplateFile(env.dotSagenb), DomainName(answer), env.serial), GenerateCertificate])
    else Some([])
  }

  /** Everything before the server step, or `None` when a prompt meets the
      end of the input. */
  function Setup(p: Params, env: Env): (r: Option<seq<Effect>>)
    ensures r.None? <==> AdminStage(p, env).None? || CertStage(p, env).None?
  {
    match AdminStage(p, env)
    case None => None
    case Some(admin) =>
      match CertStage(p, env)
      case None => None
      case Some(cert) => Some(Entering(p, env) + CopyStage(env) + admin + cert)
  }

  /** The set-up neither writes a server configuration nor starts a server. */
  lemma SetupPreparatory(p: Params, env: Env)
    requires Setup(p, env).Some?
    ensures AllPreparatory(Setup(p, env).value)
  {
    var admin := AdminStage(p, env).value;
    var e: seq<Effect> := Entering(p, env);
    var copy: seq<Effect> := CopyStage(env);
    var c: seq<Effect> := CertStage(p, env).value;
    EnteringPreparatory(p, env);
    assert AllPreparatory(copy);
    AdminPreparatory(p, env);
    CertPreparatory(p, env);
    AllPreparatoryAppend(e, copy);
    AllPreparatoryAppend(e + copy, admin);
    AllPreparatoryAppend(e + copy + admin, c);
  }

  lemma EnteringPreparatory(p: Params, env: Env)
    ensures AllPreparatory(Entering(p, env))
  {
  }

  lemma AdminPreparatory(p: Params, env: Env)
    requires AdminStage(p, env).Some?
    ensures AllPreparatory(AdminStage(p, env).value)
  {
  }

  lemma CertPreparatory(p: Params, env: Env)
    requires CertStage(p, env).Some?
    ensures AllPreparatory(CertStage(p, env).value)
  {
  }

  lemma AllPreparatoryAppend(a: seq<Effect>, b: seq<Effect>)
    requires AllPreparatory(a) && AllPreparatory(b)
    ensures AllPreparatory(a + b)
  {
    assert forall i :: 0 <= i < |a + b| ==> (a + b)[i] == if i < |a| then a[i] else b[i - |a|];
  }

  /** What the launch does when another server owns the directory: browse
      to it when automatic login is on and a port was read back.  The
      browser goes to the interface, port and flag of the leftmost-longest
      match of the settings pattern in the old configuration, with
      `localhost` for an empty interface. */
  function Reuse(oldConf: Option<string>, automaticLogin: bool): (r: seq<Effect>)
    ensures |r| <= 1
    ensures r != [] <==> automaticLogin && GetOldSettings(oldConf).Some? && GetOldSettings(oldConf).value.port != ""
    ensures r != [] ==> r[0].Browse? && r[0].host != ""
    ensures r != [] ==> oldConf.Some? && (exists q: nat, m ::
      LeftmostLongest(oldConf.value, q, m) && m.port != "" && r == [Browse(HostName(m.iface), m.port, m.secure)])
  {
    match GetOldSettings(oldConf)
    case None => []
    case Some(prev) =>
      if automaticLogin && prev.port != "" then [Browse(HostName(prev.iface), prev.port, prev.secure)] else []
  }

  /** The server step: the configuration written and the command, or how
      the launch stops. */
  datatype ServerPlan = Command(effects: seq<Effect>, cmd: Cmd) | Stop(effects: seq<Effect>, outcome: Outcome)

  function FlaskConf(env: Env): string { PathJoin(env.notebookDir, "run_flask") }
  function TwistdConf(env: Env): string { PathJoin(env.notebookDir, "twistedconf.tac") }
  function TwistdPidFile(env: Env): string { PathJoin(env.notebookDir, "twistd.pid") }

  /** `run_flask` and `run_twistd`: a command exactly for Flask and for
      Twisted without another server, after writing the configuration the
      command reads, for the free port, the data directory and the launch's
      interface and flags; otherwise the launch stops, reusing the other
      Twisted server or failing for an unknown server. */
  function ServerStage(p: Params, env: Env): (r: ServerPlan)
    ensures r.Command? <==> p.server == "flask" || (p.server == "twistd" && !env.pidCheck.OtherServer?)
    ensures r.Command? ==>
      r.effects == [WriteConfig(r.cmd.conf, if p.server == "flask" then Flask else Twistd, LaunchWritten(p, env))]
    ensures r.Stop? ==> (r.outcome == AlreadyRunning <==> p.server == "twistd")
    ensures r.Stop? && r.outcome == AlreadyRunning ==> r.effects == Reuse(env.oldConf, p.automaticLogin)
    ensures r.Stop? && r.outcome != AlreadyRunning ==> r == Stop([], Failed(UnknownServer))
  {
    var w := LaunchWritten(p, env);
    if p.server == "flask" then
      Command([WriteConfig(FlaskConf(env), Flask, w)], FlaskCmd(FlaskConf(env)))
    else if p.server == "twistd" then
      if env.pidCheck.OtherServer? then
        Stop(Reuse(env.oldConf, p.automaticLogin), AlreadyRunning)
      else
        Command([WriteConfig(TwistdConf(env), Twistd, w)], TwistdCmd(TwistdPidFile(env), TwistdConf(env)))
    else
      Stop([], Failed(UnknownServer))
  }

  /** Running the command: in a child process when forking, otherwise in the
      foreground, after which the working directory is restored and exit
      status 256 becomes a socket error; any other status is ignored. */
  function Execute(cmd: Cmd, fork: bool, cwd: string, status: int): (r: Launch)
    ensures r.outcome == Failed(SocketError) <==> !fork && status == 256
  {
    if fork then Launch([SpawnCommand(cmd)], Spawned(cmd))
    else Launch([RunCommand(cmd), ReturnToDirectory(cwd)], if status == 256 then Failed(SocketError) else Finished)
  }

  /** The server step with the command run: what follows the set-up. */
  function ServerStep(p: Params, env: Env): Launch {
    match ServerStage(p, env)
    case Stop(e, o) => Launch(e, o)
    case Command(e, cmd) =>
      var x := Execute(cmd, p.fork, env.cwd, env.exitStatus);
      Launch(e + x.effects, x.outcome)
  }

  /** The server step does none of the set-up's work. */
  lemma ServerStepNotPreparatory(p: Params, env: Env)
    ensures forall i :: 0 <= i < |ServerStep(p, env).effects| ==> !Preparatory(ServerStep(p, env).effects[i])
  {
  }

  /** What the launch has done when a prompt meets the end of the input,
      and the failure: the password prompts, or the domain-name prompt
      after an admin password has been settled. */
  function Halted(p: Params, env: Env): (r: Launch)
    ensures r.outcome == Failed(PasswordInputEnded) <==> AdminStage(p, env).None?
    ensures r.outcome == Failed(PasswordInputEnded) || r.outcome == Failed(DomainInputEnded)
  {
    match AdminStage(p, env)
    case None => Launch(Entering(p, env) + CopyStage(env), Failed(PasswordInputEnded))
    case Some(admin) => Launch(Entering(p, env) + CopyStage(env) + admin, Failed(DomainInputEnded))
  }

  /** `notebook_run`: the argument checks, the set-up, and the server step. */
  function Run(p: Params, env: Env): (r: Launch)
    ensures r.outcome.Spawned? ==> p.fork
    ensures r.outcome == Finished || r.outcome == Failed(SocketError) ==> !p.fork
  {
    match CheckLegacy(p.legacy)
    case Some(err) => Launch([], Failed(Withdrawn(err)))
    case None =>
      match Setup(p, env)
      case None => Halted(p, env)
      case Some(setup) =>
        var s := ServerStep(p, env);
        Launch(setup + s.effects, s.outcome)
  }

  /** The launch gets past the argument checks and both prompts. */
  predicate Reaches(p: Params, env: Env) {
    !AnyLegacy(p.legacy) && Setup(p, env).Some?
  }

  /** The launch gets past the argument checks and the password prompts. */
  predicate PassesPasswordPrompts(p: Params, env: Env) {
    !AnyLegacy(p.legacy) && AdminStage(p, env).Some?
  }

  /** The launch gets to run a server command: Flask always, Twisted unless
      another Twisted server owns the directory. */
  predicate StartsServer(p: Params, env: Env) {
    Reaches(p, env) && (p.server == "flask" || (p.server == "twistd" && !env.pidCheck.OtherServer?))
  }

  predicate IsCommand(e: Effect) { e.RunCommand? || e.SpawnCommand? }

  predicate Runs(effects: seq<Effect>) {
    exists i :: 0 <= i < |effects| && IsCommand(effects[i])
  }

  /** A withdrawn argument stops the launch before it does anything, and
      only a withdrawn argument fails that way. */
  lemma WithdrawnFirst(p: Params, env: Env)
    ensures AnyLegacy(p.legacy) ==> Run(p, env).effects == []
    ensures Run(p, env).outcome.Failed? && Run(p, env).outcome.failure.Withdrawn? <==> AnyLegacy(p.legacy)
    ensures Run(p, env).outcome.Failed? && Run(p, env).outcome.failure.Withdrawn?
      ==> Some(Run(p, env).outcome.failure.err) == CheckLegacy(p.legacy)
  {
    if !AnyLegacy(p.legacy) {
      NotWithdrawn(p, env);
    }
  }

  /** Past the argument checks every way the launch ends is something
      other than a withdrawn argument. */
  lemma NotWithdrawn(p: Params, env: Env)
    requires CheckLegacy(p.legacy).None?
    ensures !Run(p, env).outcome.Failed? || !Run(p, env).outcome.failure.Withdrawn?
  {
    match Setup(p, env)
    case None =>
    case Some(_) =>
      match ServerStage(p, env)
      case Stop(_, o) =>
      case Command(_, cmd) =>
        var x := Execute(cmd, p.fork, env.cwd, env.exitStatus);
        assert x.outcome.Failed? ==> x.outcome == Failed(SocketError);
        assert ServerStep(p, env).outcome == x.outcome;
  }

  /** A launch that meets the end of the input has only prepared. */
  lemma HaltedPreparatory(p: Params, env: Env)
    ensures AllPreparatory(Halted(p, env).effects)
  {
    EnteringPreparatory(p, env);
    AllPreparatoryAppend(Entering(p, env), CopyStage(env));
    if AdminStage(p, env).Some? {
      AdminPreparatory(p, env);
      AllPreparatoryAppend(Entering(p, env) + CopyStage(env), AdminStage(p, env).value);
    }
  }

  predicate NoConfig(es: seq<Effect>) {
    forall i :: 0 <= i < |es| ==> !es[i].WriteConfig?
  }

  /** The set-up adds no command and no configuration to what follows. */
  lemma AfterSetup(setup: seq<Effect>, e: seq<Effect>)
    requires AllPreparatory(setup)
    ensures Runs(setup + e) <==> Runs(e)
    ensures NoConfig(setup + e) <==> NoConfig(e)
  {
    assert forall i :: 0 <= i < |e| ==> (setup + e)[|setup| + i] == e[i];
    assert forall i :: 0 <= i < |setup| ==> (setup + e)[i] == setup[i];
  }

  /** The server step runs a command exactly for Flask and for Twisted
      without another server; otherwise it writes no configuration. */
  lemma ServerStepRuns(p: Params, env: Env)
    ensures Runs(ServerStep(p, env).effects) <==>
      p.server == "flask" || (p.server == "twistd" && !env.pidCheck.OtherServer?)
    ensures !(p.server == "flask" || (p.server == "twistd" && !env.pidCheck.OtherServer?)) ==>
      NoConfig(ServerStep(p, env).effects)
  {
    match ServerStage(p, env)
    case Stop(e, o) =>
      assert forall i :: 0 <= i < |e| ==> e[i].Browse?;
    case Command(e, cmd) =>
      assert IsCommand(ServerStep(p, env).effects[|e|]);
  }

  /** The server steps, and only they, start a server; a launch that stops
      early, finds another Twisted server or names an unknown server runs no
      command and writes no server configuration. */
  lemma ServerStartedIff(p: Params, env: Env)
    ensures Runs(Run(p, env).effects) <==> StartsServer(p, env)
    ensures !StartsServer(p, env) ==> NoConfig(Run(p, env).effects)
  {
    var l := Run(p, env);
    if AnyLegacy(p.legacy) {
      assert l.effects == [];
    } else if Setup(p, env).None? {
      var pre := Halted(p, env).effects;
      HaltedPreparatory(p, env);
      AfterSetup(pre, []);
      assert l.effects == pre + [];
    } else {
      SetupPreparatory(p, env);
      ServerStepRuns(p, env);
      AfterSetup(Setup(p, env).value, ServerStep(p, env).effects);
    }
  }

  /** Exit status 256 of a foreground server, and nothing else, is reported
      as a socket error; every other status of a foreground server counts as
      a normal finish, and a forked server is left running. */
  lemma SocketErrorIff(p: Params, env: Env)
    ensures Run(p, env).outcome == Failed(SocketError) <==> StartsServer(p, env) && !p.fork && env.exitStatus == 256
    ensures StartsServer(p, env) && !p.fork && env.exitStatus != 256 ==> Run(p, env).outcome == Finished
    ensures StartsServer(p, env) && p.fork ==> Run(p, env).outcome.Spawned?
  {
    if !AnyLegacy(p.legacy) && Setup(p, env).Some? {
      match ServerStage(p, env)
      case Stop(e, o) =>
      case Command(e, cmd) =>
    }
  }

  /** The launch ends as already running exactly when it gets past the
      prompts as a Twisted launch and the PID check reports another server;
      it then at most points a browser at that server. */
  lemma AlreadyRunningIff(p: Params, env: Env)
    ensures Run(p, env).outcome == AlreadyRunning <==>
      Reaches(p, env) && p.server == "twistd" && env.pidCheck.OtherServer?
    ensures Run(p, env).outcome == AlreadyRunning ==>
      Run(p, env).effects == Setup(p, env).value + Reuse(env.oldConf, p.automaticLogin)
  {
    if !AnyLegacy(p.legacy) && Setup(p, env).Some? {
      match ServerStage(p, env)
      case Stop(e, o) =>
      case Command(e, cmd) =>
    } else if !AnyLegacy(p.legacy) {
      assert Run(p, env).outcome == Halted(p, env).outcome;
    }
  }

  /** The prompts end the launch exactly when a password is needed and the
      answers run out. */
  lemma PasswordInputEndedIff(p: Params, env: Env)
    ensures Run(p, env).outcome == Failed(PasswordInputEnded) <==>
      !AnyLegacy(p.legacy) && NeedsPassword(p, env) && Choose(env.answers, env.minLen).Exhausted?
  {
    if !AnyLegacy(p.legacy) && Setup(p, env).Some? {
      match ServerStage(p, env)
      case Stop(e, o) =>
      case Command(e, cmd) =>
    }
  }

  /** A secure launch without both key files that meets the end of the
      input at the domain-name prompt fails there, after the password
      prompts, with no certificate, configuration or server. */
  lemma DomainInputEndedIff(p: Params, env: Env)
    ensures Run(p, env).outcome == Failed(DomainInputEnded) <==>
      PassesPasswordPrompts(p, env) && NeedsCertificate(p, env) && env.domainAnswer.None?
    ensures Run(p, env).outcome == Failed(DomainInputEnded) ==>
      Run(p, env).effects == Entering(p, env) + CopyStage(env) + AdminStage(p, env).value
  {
    if !AnyLegacy(p.legacy) && Setup(p, env).Some? {
      match ServerStage(p, env)
      case Stop(e, o) =>
      case Command(e, cmd) =>
        assert Execute(cmd, p.fork, env.cwd, env.exitStatus).outcome != Failed(DomainInputEnded);
    }
  }

  /** The admin password is set to `pw` exactly when the launch gets past
      the password prompts, needed a password, and the prompt loop accepted
      `pw`; such a password is long enough. */
  lemma PasswordSetIff(p: Params, env: Env, pw: string)
    ensures SetAdminPassword(pw) in Run(p, env).effects <==>
      PassesPasswordPrompts(p, env) && NeedsPassword(p, env) && Choose(env.answers, env.minLen).passwd == pw
    ensures SetAdminPassword(pw) in Run(p, env).effects ==> |pw| >= env.minLen
  {
    var l := Run(p, env);
    if AnyLegacy(p.legacy) {
      assert l.effects == [];
    } else if Setup(p, env).None? {
      assert SetAdminPassword(pw) !in Entering(p, env);
      assert SetAdminPassword(pw) !in CopyStage(env);
    } else {
      var setup := Setup(p, env).value;
      assert SetAdminPassword(pw) !in Entering(p, env);
      assert SetAdminPassword(pw) in setup <==> SetAdminPassword(pw) in AdminStage(p, env).value;
      ServerStepNotPreparatory(p, env);
      assert SetAdminPassword(pw) !in ServerStep(p, env).effects;
    }
  }

  /** `root`'s password is copied to a new `admin` exactly when the
      arguments pass and the store has `root` but no `admin`, even when the
      prompts that follow run out. */
  lemma CopyRootIff(p: Params, env: Env)
    ensures CopyRootPassword in Run(p, env).effects <==>
      !AnyLegacy(p.legacy) && env.rootExists && !env.adminExists
  {
    var l := Run(p, env);
    if AnyLegacy(p.legacy) {
      assert l.effects == [];
    } else if Setup(p, env).Some? {
      var setup := Setup(p, env).value;
      assert CopyRootPassword !in Entering(p, env);
      assert CopyRootPassword !in AdminStage(p, env).value;
      assert CopyRootPassword !in CertStage(p, env).value;
      ServerStepNotPreparatory(p, env);
      assert CopyRootPassword !in ServerStep(p, env).effects;
    } else {
      assert CopyRootPassword !in Entering(p, env);
      if AdminStage(p, env).Some? {
        assert CopyRootPassword !in AdminStage(p, env).value;
      }
    }
  }

  /** A secure launch without both key files writes the certificate
      template, with the cleaned domain name and the serial, and has
      certtool run right after it; no other launch makes a certificate.
      This set-up comes before the PID check, so it also happens when
      another server turns out to own the directory. */
  lemma CertificateSetupIff(p: Params, env: Env)
    ensures GenerateCertificate in Run(p, env).effects <==> Reaches(p, env) && NeedsCertificate(p, env)
    ensures Reaches(p, env) && NeedsCertificate(p, env) ==>
      var es := Run(p, env).effects;
      && env.domainAnswer.Some?
      && (exists i ::
            && 0 <= i < |es| - 1
            && es[i] == WriteCertTemplate(TemplateFile(env.dotSagenb), DomainName(env.domainAnswer.value), env.serial)
            && es[i + 1] == GenerateCertificate)
  {
    var l := Run(p, env);
    if AnyLegacy(p.legacy) {
      assert l.effects == [];
    } else if Setup(p, env).Some? {
      var pre: seq<Effect> := Entering(p, env) + CopyStage(env) + AdminStage(p, env).value;
      var c: seq<Effect> := CertStage(p, env).value;
      var rest: seq<Effect> := ServerStep(p, env).effects;
      assert GenerateCertificate !in Entering(p, env);
      assert GenerateCertificate !in AdminStage(p, env).value;
      assert GenerateCertificate !in pre;
      ServerStepNotPreparatory(p, env);
      assert GenerateCertificate !in rest;
      assert l.effects == pre + c + rest;
      if p.secure && !env.pemsPresent {
        assert l.effects[|pre|] == c[0] && l.effects[|pre| + 1] == c[1];
      }
    } else {
      assert GenerateCertificate !in Entering(p, env);
      if AdminStage(p, env).Some? {
        assert GenerateCertificate !in AdminStage(p, env).value;
      }
    }
  }

  /** What the launch records in a configuration it writes. */
  function LaunchWritten(p: Params, env: Env): Written {
    Written(env.absDir, p.iface, env.freePort, p.secure, p.automaticLogin)
  }

  /** The configuration step and the command it is followed by. */
  predicate ConfigThenStart(p: Params, env: Env, c: Effect, run: Effect) {
    && c.WriteConfig? && c.written == LaunchWritten(p, env)
    && IsCommand(run) && run.cmd.conf == c.path
    && (c.server == Twistd <==> p.server == "twistd")
    && (p.server == "twistd" ==> c.path == TwistdConf(env) && run.cmd == TwistdCmd(TwistdPidFile(env), TwistdConf(env)))
    && (p.server == "flask" ==> c.path == FlaskConf(env) && run.cmd == FlaskCmd(FlaskConf(env)))
  }

  /** How a server step that runs a command goes: the configuration, the
      command, and for a foreground server the return to the starting
      directory. */
  lemma ServerStepStarts(p: Params, env: Env)
    requires p.server == "flask" || (p.server == "twistd" && !env.pidCheck.OtherServer?)
    ensures var es := ServerStep(p, env).effects;
      && |es| >= 2 && ConfigThenStart(p, env, es[0], es[1])
      && (if p.fork then |es| == 2 else es[|es| - 1] == ReturnToDirectory(env.cwd))
  {
  }

  /** A launch that starts a server first writes the configuration for the
      free port, the data directory and the launch's interface and flags,
      then starts the server from exactly that file: Flask from `run_flask`,
      Twisted from `twistedconf.tac` with its PID file beside it. */
  lemma ConfigThenCommand(p: Params, env: Env)
    requires StartsServer(p, env)
    ensures var es := Run(p, env).effects;
      exists i :: 0 <= i < |es| - 1 && ConfigThenStart(p, env, es[i], es[i + 1])
  {
    var setup := Setup(p, env).value;
    var ss := ServerStep(p, env).effects;
    ServerStepStarts(p, env);
    var es := Run(p, env).effects;
    assert es == setup + ss;
    var k := |setup|;
    assert es[k] == ss[0] && es[k + 1] == ss[1];
  }

  /** A foreground server is followed by the return to the starting
      directory; a forked one is the last thing the launch does. */
  lemma LastEffect(p: Params, env: Env)
    requires StartsServer(p, env)
    ensures var es := Run(p, env).effects;
      && |es| > 0
      && (!p.fork ==> es[|es| - 1] == ReturnToDirectory(env.cwd))
      && (p.fork ==> IsCommand(es[|es| - 1]))
  {
    var ss := ServerStep(p, env).effects;
    ServerStepStarts(p, env);
    RunReached(p, env);
    LastOfAppend(Setup(p, env).value, ss);
  }

  /** Past the argument checks and the prompts, the launch is the set-up
      followed by the server step. */
  lemma RunReached(p: Params, env: Env)
    requires Reaches(p, env)
    ensures Run(p, env) == Launch(Setup(p, env).value + ServerStep(p, env).effects, ServerStep(p, env).outcome)
  {
  }

  lemma LastOfAppend<T>(a: seq<T>, b: seq<T>)
    requires |b| > 0
    ensures (a + b)[|a + b| - 1] == b[|b| - 1]
  {
  }

  predicate NoEnter(es: seq<Effect>) {
    forall i :: 0 <= i < |es| ==> !es[i].EnterDirectory?
  }

  lemma NoEnterAppend(a: seq<Effect>, b: seq<Effect>)
    requires NoEnter(a) && NoEnter(b)
    ensures NoEnter(a + b)
  {
    assert forall i :: 0 <= i < |a + b| ==> (a + b)[i] == if i < |a| then a[i] else b[i - |a|];
  }

  /** Past the argument checks, the first thing the launch does is the
      directory step, when there is one (`Entering` says when). */
  lemma EntersFirst(p: Params, env: Env)
    requires !AnyLegacy(p.legacy) && Entering(p, env) != []
    ensures Run(p, env).effects[0] == Entering(p, env)[0]
  {
    var pre := Entering(p, env) + CopyStage(env);
    if Setup(p, env).Some? {
      assert Run(p, env).effects[0] == (pre + AdminStage(p, env).value + CertStage(p, env).value)[0];
    } else if AdminStage(p, env).Some? {
      assert Run(p, env).effects[0] == (pre + AdminStage(p, env).value)[0];
    }
  }

  /** Without a directory step the launch changes directory nowhere else. */
  lemma EntersOnlyThere(p: Params, env: Env)
    requires Entering(p, env) == []
    ensures NoEnter(Run(p, env).effects)
  {
    var e := Entering(p, env);
    var copy := CopyStage(env);
    assert NoEnter(copy);
    NoEnterAppend(e, copy);
    if !AnyLegacy(p.legacy) && Setup(p, env).Some? {
      SetupNoEnter(p, env);
      ServerStepNotPreparatory(p, env);
      assert NoEnter(ServerStep(p, env).effects);
      NoEnterAppend(Setup(p, env).value, ServerStep(p, env).effects);
    } else if !AnyLegacy(p.legacy) && AdminStage(p, env).Some? {
      StagesNoEnter(p, env);
      NoEnterAppend(e + copy, AdminStage(p, env).value);
    }
  }

  lemma SetupNoEnter(p: Params, env: Env)
    requires Entering(p, env) == [] && Setup(p, env).Some?
    ensures NoEnter(Setup(p, env).value)
  {
    var e := Entering(p, env);
    var copy := CopyStage(env);
    var admin := AdminStage(p, env).value;
    var c := CertStage(p, env).value;
    StagesNoEnter(p, env);
    NoEnterAppend(e, copy);
    NoEnterAppend(e + copy, admin);
    NoEnterAppend(e + copy + admin, c);
  }

  /** Only the directory step changes directory. */
  lemma StagesNoEnter(p: Params, env: Env)
    ensures NoEnter(CopyStage(env))
    ensures AdminStage(p, env).Some? ==> NoEnter(AdminStage(p, env).value)
    ensures CertStage(p, env).Some? ==> NoEnter(CertStage(p, env).value)
  {
  }

  /** A Twisted configuration written by one launch brings the next launch
      in the same directory, when that one finds the first server running
      and logs in automatically, to point a browser at the first server's
      host, port and scheme, and to do nothing else after its set-up. */
  lemma RelaunchBrowses(p: Params, env: Env, p2: Params, env2: Env, head: string, rest: string)
    requires StartsServer(p, env) && p.server == "twistd"
    requires NoNewline(p.iface) && !Occurs(Marker, head + Quoted(env.absDir))
    requires Reaches(p2, env2) && p2.server == "twistd" && env2.pidCheck.OtherServer? && p2.automaticLogin
    requires env2.oldConf == Some(TwistdFile(head, OptsText(LaunchWritten(p, env)), rest))
    ensures Run(p2, env2).outcome == AlreadyRunning
    ensures Run(p2, env2).effects
         == Setup(p2, env2).value + [Browse(HostName(p.iface), Decimal(env.freePort), p.secure)]
  {
    TwistdFileReadBack(head, env.absDir, p.iface, env.freePort, p.secure, rest);
    AlreadyRunningIff(p2, env2);
  }
}

=== FILE: option.dfy ===
/** Python's `None` or a value, for the launcher's optional arguments and
    for the answers of readers that may find nothing. */
module Wrappers {

  datatype Option<T> = None | Some(value: T)
}

=== FILE: paths.dfy ===
/** The two path operations the launcher borrows from Python's `posixpath`:
    `split`, which cuts a path into the directory part and the last
    component, and `join` of two parts. */
module Paths {

  predicate NoSlash(s: string) { forall i :: 0 <= i < |s| ==> s[i] != '/' }

  predicate AllSlashes(s: string) { forall i :: 0 <= i < |s| ==> s[i] == '/' }

  /** `p.rfind('/') + 1` on `p[..e]`: the index just past the last slash
      before `e`, or 0 when there is none. */
  function AfterLastSlash(p: string, e: nat): (i: nat)
    requires e <= |p|
    ensures i <= e
    ensures i > 0 ==> p[i - 1] == '/'
    ensures forall j :: i <= j < e ==> p[j] != '/'
    decreases e
  {
    if e == 0 then 0 else if p[e - 1] == '/' then e else AfterLastSlash(p, e - 1)
  }

  /** Index just past the last non-slash before `e` (`s[..e].rstrip('/')`). */
  function StripSlashes(s: string, e: nat): (k: nat)
    requires e <= |s|
    ensures k <= e
    ensures forall j :: k <= j < e ==> s[j] == '/'
    ensures k > 0 ==> s[k - 1] != '/'
    decreases e
  {
    if e == 0 || s[e - 1] != '/' then e else StripSlashes(s, e - 1)
  }

  /** `posixpath.split(p)`: the text after the last slash is the tail; the
      text up to and including it is the head, with its trailing slashes
      removed unless it consists of slashes only. */
  function PathSplit(p: string): (r: (string, string))
    ensures NoSlash(r.1)
  {
    var i := AfterLastSlash(p, |p|);
    var h := p[..i];
    if h != "" && !AllSlashes(h) then
      var k := StripSlashes(h, |h|);
      assert k > 0;
      assert !AllSlashes(h[..k]) by { assert h[..k][k - 1] == h[k - 1]; }
      (h[..k], p[i..])
    else
      (h, p[i..])
  }

  /** The two parts of `PathSplit(p)`: the tail is the text after the last
      slash; the head is the text before it with its trailing slashes
      removed, unless that text consists of slashes only. */
  lemma PathSplitShape(p: string)
    ensures var r := PathSplit(p);
      && |r.1| <= |p| && p[|p| - |r.1|..] == r.1
      && (|r.1| < |p| ==> p[|p| - |r.1| - 1] == '/')
    ensures var r := PathSplit(p);
      var h := p[..|p| - |r.1|];
      && |r.0| <= |h| && r.0 == h[..|r.0|]
      && (forall j :: |r.0| <= j < |h| ==> h[j] == '/')
      && (AllSlashes(h) <==> r.0 == h)
      && (!AllSlashes(h) ==> |r.0| > 0 && r.0[|r.0| - 1] != '/')
  {
  }

  /** `posixpath.join(a, b)` for two parts. */
  function PathJoin(a: string, b: string): (r: string)
    ensures |b| > 0 && b[0] == '/' ==> r == b
    ensures !(|b| > 0 && b[0] == '/') ==> |r| == |a| + |b| + (if a == "" || a[|a| - 1] == '/' then 0 else 1)
    ensures !(|b| > 0 && b[0] == '/') ==> r[..|a|] == a && r[|r| - |b|..] == b
  {
    if |b| > 0 && b[0] == '/' then b
    else if a == "" || a[|a| - 1] == '/' then a + b
    else a + "/" + b
  }

  /** Joining the two parts of a split gives the path back unless the
      head had two or more trailing slashes that the split removed. */
  lemma {:induction false} SplitThenJoin(p: string)
    requires var t := PathSplit(p).1;
      var h := p[..|p| - |t|];
      AllSlashes(h) || |PathSplit(p).0| + 1 >= |h|
    ensures PathJoin(PathSplit(p).0, PathSplit(p).1) == p
  {
    var r := PathSplit(p);
    PathSplitShape(p);
    var head, tail := r.0, r.1;
    var h := p[..|p| - |tail|];
    assert p == h + tail;
    assert |tail| == 0 || tail[0] != '/';
    if AllSlashes(h) {
      assert head == h;
      if h != "" {
        assert h[|h| - 1] == '/';
        assert PathJoin(head, tail) == h + tail;
      }
    } else {
      assert |head| + 1 == |h|;
      assert h[|h| - 1] == '/';
      assert h == head + "/";
      assert PathJoin(head, tail) == head + "/" + tail;
    }
  }
}

=== FILE: server_config.dfy ===
/** The strings a launch writes for the server it starts: where the
    certificate files live, the Twisted endpoint description ("strport"),
    the statement that opens a browser on the new server, the server
    command lines, and where the settings text sits in the generated
    Twisted configuration file. */
module ServerConfig {
  import opened Wrappers
  import opened Text
  import opened Paths
  import opened SettingsFormat

  /** Secure servers use OpenSSL's SSL transport. */
  const Protocol: string := "ssl"

  /** The notebook's configuration directory and the files in it, below
      the per-user directory `DOT_SAGENB`. */
  function ConfPath(dotSagenb: string): string { PathJoin(dotSagenb, "notebook") }
  function PrivatePem(dotSagenb: string): string { PathJoin(ConfPath(dotSagenb), "private.pem") }
  function PublicPem(dotSagenb: string): string { PathJoin(ConfPath(dotSagenb), "public.pem") }
  function TemplateFile(dotSagenb: string): string { PathJoin(ConfPath(dotSagenb), "cert.cfg") }

  /** For a per-user directory without a trailing slash the three files are
      `notebook/private.pem`, `notebook/public.pem` and `notebook/cert.cfg`
      inside it. */
  lemma CertificateFiles(dotSagenb: string)
    requires dotSagenb != "" && dotSagenb[|dotSagenb| - 1] != '/'
    ensures PrivatePem(dotSagenb) == dotSagenb + "/" + "notebook" + "/" + "private.pem"
    ensures PublicPem(dotSagenb) == dotSagenb + "/" + "notebook" + "/" + "public.pem"
    ensures TemplateFile(dotSagenb) == dotSagenb + "/" + "notebook" + "/" + "cert.cfg"
  {
    var c := ConfPath(dotSagenb);
    assert c == dotSagenb + "/" + "notebook";
    assert c[|c| - 1] == "notebook"[7];
  }

  /** The Twisted endpoint the server listens on: SSL with the key and
      certificate files when secure, plain TCP otherwise. */
  function Strport(port: nat, iface: string, secure: bool, privateKey: string, certKey: string): (r: string)
    ensures |r| >= 4 && r[3] == ':'
    ensures r[..3] == if secure then Protocol else "tcp"
  {
    if secure then
      Protocol + ":" + Decimal(port) + ":" + ("interface=" + iface) + ":" + ("privateKey=" + privateKey) + ":" + ("certKey=" + certKey)
    else
      "tcp" + ":" + Decimal(port) + ":" + ("interface=" + iface)
  }

  lemma DigitsHaveNo(s: string, c: char)
    requires AllDigits(s) && !IsDigit(c)
    ensures c !in s
  {
  }

  /** Reading the endpoint back: split at the colons it is the protocol,
      the port, the interface option and, for a secure server only, the two
      key-file options; nothing else. */
  lemma StrportFields(port: nat, iface: string, secure: bool, privateKey: string, certKey: string)
    requires ':' !in iface
    requires secure ==> ':' !in privateKey && ':' !in certKey
    ensures Split(Strport(port, iface, secure, privateKey, certKey), ':')
         == if secure then [Protocol, Decimal(port), "interface=" + iface, "privateKey=" + privateKey, "certKey=" + certKey]
            else ["tcp", Decimal(port), "interface=" + iface]
  {
    DigitsHaveNo(Decimal(port), ':');
    assert ':' !in "interface=" + iface;
    if secure {
      assert ':' !in "privateKey=" + privateKey;
      assert ':' !in "certKey=" + certKey;
      SplitFive(Protocol, Decimal(port), "interface=" + iface, "privateKey=" + privateKey, "certKey=" + certKey, ':');
    } else {
      SplitThree("tcp", Decimal(port), "interface=" + iface, ':');
    }
  }

  /** The host a browser is pointed at: the interface, or `localhost` when
      the interface is empty (listening on all interfaces). */
  function HostName(iface: string): (h: string)
    ensures h != ""
    ensures iface != "" ==> h == iface
    ensures iface == "" ==> h == "localhost"
  {
    if iface != "" then iface else "localhost"
  }

  /** The import and the call, up to the first argument. */
  const OpenPageCall: string := "from sagenb.misc.misc " + "import open_page; " + "open_page("

  lemma OpenPageCallUnquoted()
    ensures '\'' !in OpenPageCall
  {
    assert '\'' !in "from sagenb.misc.misc ";
    assert '\'' !in "import open_page; ";
    assert '\'' !in "open_page(";
  }

  /** The arguments after the host: the port, the secure flag and the start
      of the start path `'/?startup_token=%s' % startup_token`. */
  function OpenPageArgs(port: nat, secure: bool): string {
    ", " + Decimal(port) + ", " + PyBool(secure) + ", "
  }

  /** The rest of the start path and the closing parenthesis. */
  const StartPathRest: string := "/?startup_token=%s' % startup_token)"

  /** The statement placed in the generated configuration that opens a
      browser on the new server once it runs; empty without automatic
      login. */
  function OpenPage(automaticLogin: bool, iface: string, port: nat, secure: bool): (r: string)
    ensures r == "" <==> !automaticLogin
  {
    if automaticLogin then
      OpenPageCall + "'" + HostName(iface) + "'" + OpenPageArgs(port, secure) + "'" + StartPathRest
    else ""
  }

  /** Reading the statement back: between its first two single quotes
      stands the host, and between the next two the port and the secure
      flag; an empty interface and `localhost` give the same statement. */
  lemma OpenPageFields(iface: string, port: nat, secure: bool)
    requires '\'' !in iface
    ensures var parts := Split(OpenPage(true, iface, port, secure), '\'');
      && |parts| >= 3
      && parts[0] == OpenPageCall
      && parts[1] == HostName(iface)
      && parts[2] == ", " + Decimal(port) + ", " + PyBool(secure) + ", "
    ensures OpenPage(true, "", port, secure) == OpenPage(true, "localhost", port, secure)
  {
    Unquoted(iface, port, secure);
    SplitLeadFirst(OpenPageCall, HostName(iface), OpenPageArgs(port, secure), '\'', StartPathRest);
  }

  lemma Unquoted(iface: string, port: nat, secure: bool)
    requires '\'' !in iface
    ensures '\'' !in OpenPageCall && '\'' !in HostName(iface) && '\'' !in OpenPageArgs(port, secure)
  {
    OpenPageCallUnquoted();
    assert '\'' !in "localhost";
    DigitsHaveNo(Decimal(port), '\'');
    assert '\'' !in PyBool(secure);
  }

  /** The command that starts a Twisted server from configuration `conf`,
      recording its process id in `pidfile`. */
  function TwistdCommand(pidfile: string, conf: string): (r: string)
    ensures |r| == |pidfile| + |conf| + 27
    ensures r[..19] == "twistd  --pidfile=\"" && r[19..19 + |pidfile|] == pidfile
    ensures r[19 + |pidfile|..26 + |pidfile|] == "\" -ny \"" && r[26 + |pidfile|..|r| - 1] == conf
    ensures r[|r| - 1] == '"'
  {
    "twistd  --pidfile=" + "\"" + pidfile + "\"" + " -ny " + "\"" + conf + "\""
  }

  /** The command that starts a Flask server from configuration `conf`: the
      interpreter, the empty profiling option and the file. */
  function FlaskCommand(conf: string): (r: string)
    ensures |r| == |conf| + 8 && r[8..] == conf
    ensures r[..6] == "python" && r[6] == ' ' && r[7] == ' '
  {
    "python  " + conf
  }

  /** The configuration file is the last word of the Flask command, after
      the interpreter and the empty profiling option. */
  lemma FlaskCommandFields(conf: string)
    requires ' ' !in conf
    ensures Split(FlaskCommand(conf), ' ') == ["python", "", conf]
  {
    assert ' ' !in "python";
    assert FlaskCommand(conf) == "python" + [' '] + "" + [' '] + conf;
    SplitThree("python", "", conf, ' ');
  }

  /** The two file names can be read back from the Twisted command as its
      double-quoted words. */
  lemma TwistdCommandFields(pidfile: string, conf: string)
    requires '"' !in pidfile && '"' !in conf
    ensures Split(TwistdCommand(pidfile, conf), '"') == ["twistd  --pidfile=", pidfile, " -ny ", conf, ""]
  {
    assert '"' !in "twistd  --pidfile=" && '"' !in " -ny ";
    SplitFourClosed("twistd  --pidfile=", pidfile, " -ny ", conf, '"');
  }

  /** In the Twisted configuration file the settings text is the first
      argument of `create_app` and is followed by `, **opts)` and a line
      break; `head` and `rest` are the rendered template around it. */
  const OptsEnd: string := ", **opts)\n"

  function TwistdFile(head: string, opts: string, rest: string): (r: string)
    ensures |r| == |head| + |opts| + |OptsEnd| + |rest|
    ensures r[..|head|] == head && r[|head|..|head| + |opts|] == opts
    ensures r[|head| + |opts|..|r| - |rest|] == OptsEnd && r[|r| - |rest|..] == rest
  {
    head + opts + (OptsEnd + rest)
  }

  lemma OptsEndQuotes(rest: string)
    ensures QuotesAfterLineBreak(OptsEnd + rest)
  {
    var s := OptsEnd + rest;
    assert s[|OptsEnd| - 1] == '\n';
    assert forall i :: 0 <= i < |OptsEnd| ==> s[i] == OptsEnd[i] && OptsEnd[i] != '"';
  }

  /** A Twisted configuration written by one launch is read back by the
      next: the reader finds the interface, port and flag that were written,
      as long as the template text before the settings and the quoted data
      directory hold no `interface="` and the interface holds no line
      break. */
  lemma TwistdFileReadBack(head: string, absDir: string, iface: string, port: nat, secure: bool, rest: string)
    requires NoNewline(iface)
    requires !Occurs(Marker, head + Quoted(absDir))
    ensures GetOldSettings(Some(TwistdFile(head, NotebookOpts(absDir, iface, port, secure), rest)))
         == Some(Settings(iface, Decimal(port), secure))
  {
    OptsEndQuotes(rest);
    EmbeddedRoundTrip(head, absDir, iface, port, secure, OptsEnd + rest);
  }
}

=== FILE: settings.dfy ===
/** The settings record a launch embeds in its generated server configuration
    (`notebook_opts`), and the reader that recovers interface, port and secure
    flag from such a file when another server is found running.

    The reader is the regular expression
      interface="(.*)",port=(\d*),secure=(True|False)
    applied with Python's `re.search`: the leftmost starting position that
    admits a match wins, `.*` is greedy and stops at line breaks, `\d*` is
    greedy, and `True` is tried before `False`.  `IsMatch` states what a match
    is; `Locate` computes the match `re.search` reports. */
module SettingsFormat {
  import opened Wrappers
  import opened Text

  /** What `get_old_settings` returns: the captured interface, the captured
      port text (digits, possibly empty) and the secure flag. */
  datatype Settings = Settings(iface: string, port: string, secure: bool)

  /** A match reported by the search: where it starts and what it captured. */
  datatype Found = Found(pos: nat, settings: Settings)

  const Marker: string := "interface=\""
  const PortKey: string := "\",port="
  const SecureKey: string := ",secure="

  /** Python's `'%s' % b` for a boolean. */
  function PyBool(b: bool): string { if b then "True" else "False" }

  /** `",port=(\d*),secure=(True|False)` matches at `k` with the given captures. */
  predicate TailAt(text: string, k: nat, port: string, secure: bool) {
    && PrefixAt(text, k, PortKey)
    && AllDigits(port)
    && PrefixAt(text, k + |PortKey|, port)
    && PrefixAt(text, k + |PortKey| + |port|, SecureKey)
    && PrefixAt(text, k + |PortKey| + |port| + |SecureKey|, PyBool(secure))
  }

  /** `(.*)` followed by the tail matches at `s` with the captures of `m`. */
  predicate CapturesAt(text: string, s: nat, m: Settings) {
    && PrefixAt(text, s, m.iface)
    && NoNewline(m.iface)
    && TailAt(text, s + |m.iface|, m.port, m.secure)
  }

  /** The whole pattern matches at `p` with the captures of `m`. */
  predicate IsMatch(text: string, p: nat, m: Settings) {
    PrefixAt(text, p, Marker) && CapturesAt(text, p + |Marker|, m)
  }

  /** The match `re.search` reports: no match starts earlier, and no match at
      the same start captures a longer interface. */
  ghost predicate LeftmostLongest(text: string, p: nat, m: Settings) {
    && IsMatch(text, p, m)
    && (forall q: nat, m' :: IsMatch(text, q, m') ==> p <= q)
    && (forall m' :: IsMatch(text, p, m') ==> |m'.iface| <= |m.iface|)
  }

  /** The settings text written into `run_flask` and `twistedconf.tac`:
      `"<dir>",interface="<iface>",port=<port>,secure=<True|False>`. */
  function NotebookOpts(absDir: string, iface: string, port: nat, secure: bool): (r: string)
    ensures |r| >= |absDir| + 3 && r[..|absDir| + 3] == Quoted(absDir) + ","
    ensures NoNewline(iface) ==> IsMatch(r, |absDir| + 3, Settings(iface, Decimal(port), secure))
  {
    var r := Quoted(absDir) + "," + Marker + iface + Tail(Decimal(port), secure);
    OptsIsMatch(absDir, iface, Decimal(port), secure);
    r
  }

  lemma OptsIsMatch(absDir: string, iface: string, port: string, secure: bool)
    requires AllDigits(port)
    ensures var r := Quoted(absDir) + "," + Marker + iface + Tail(port, secure);
      NoNewline(iface) ==> IsMatch(r, |absDir| + 3, Settings(iface, port, secure))
  {
    if NoNewline(iface) {
      var p := |Quoted(absDir) + ","|;
      Four(Quoted(absDir) + ",", Marker, iface, Tail(port, secure));
      TailFields(port, secure);
      MatchFromLayout(Quoted(absDir) + "," + Marker + iface + Tail(port, secure), p, Settings(iface, port, secure), Tail(port, secure));
    }
  }

  /** Where each of four concatenated pieces sits. */
  lemma Four(a: string, b: string, c: string, d: string)
    ensures PrefixAt(a + b + c + d, 0, a)
    ensures PrefixAt(a + b + c + d, |a|, b)
    ensures PrefixAt(a + b + c + d, |a| + |b|, c)
    ensures PrefixAt(a + b + c + d, |a| + |b| + |c|, d)
  {
    var s := a + b + c + d;
    PrefixAtSelf(s);
    PrefixAtConcat(s, 0, a + b + c, d, |a| + |b| + |c|);
    PrefixAtConcat(s, 0, a + b, c, |a| + |b|);
    PrefixAtConcat(s, 0, a, b, |a|);
  }

  /** A tail text found at `k` is a tail match at `k`. */
  lemma TailWithin(text: string, k: nat, piece: string, port: string, secure: bool)
    requires PrefixAt(text, k, piece) && TailAt(piece, 0, port, secure)
    ensures TailAt(text, k, port, secure)
  {
    PrefixAtNested(text, k, piece, 0, PortKey);
    PrefixAtNested(text, k, piece, |PortKey|, port);
    PrefixAtNested(text, k, piece, |PortKey| + |port|, SecureKey);
    PrefixAtNested(text, k, piece, |PortKey| + |port| + |SecureKey|, PyBool(secure));
  }

  /** The marker, an interface without line breaks and a tail text laid out
      one after the other form a match. */
  lemma MatchFromLayout(text: string, p: nat, m: Settings, tail: string)
    requires PrefixAt(text, p, Marker) && PrefixAt(text, p + |Marker|, m.iface) && NoNewline(m.iface)
    requires PrefixAt(text, p + |Marker| + |m.iface|, tail) && TailAt(tail, 0, m.port, m.secure)
    ensures IsMatch(text, p, m)
  {
    TailWithin(text, p + |Marker| + |m.iface|, tail, m.port, m.secure);
  }

  function Quoted(s: string): string { "\"" + s + "\"" }

  /** `",port=<port>,secure=<True|False>`. */
  function Tail(port: string, secure: bool): string { PortKey + port + SecureKey + PyBool(secure) }

  /** A tail text matches the tail pattern with its own fields. */
  lemma TailFields(port: string, secure: bool)
    requires AllDigits(port)
    ensures TailAt(Tail(port, secure), 0, port, secure)
  {
    Four(PortKey, port, SecureKey, PyBool(secure));
  }

  /** A tail text holds no quotation mark past its first character. */
  lemma TailQuote(port: string, secure: bool)
    requires AllDigits(port)
    ensures forall j :: 0 < j < |Tail(port, secure)| ==> Tail(port, secure)[j] != '"'
  {
    var t := Tail(port, secure);
    forall j | 0 < j < |t| ensures t[j] != '"' {
      if |PortKey| <= j < |PortKey| + |port| {
        assert t[j] == port[j - |PortKey|];
        assert IsDigit(port[j - |PortKey|]);
      }
    }
  }

  /** In a tail match the port capture is the whole digit run after `",port=`. */
  lemma TailPortIsRun(text: string, k: nat, port: string, secure: bool)
    requires TailAt(text, k, port, secure)
    ensures k + |PortKey| + |port| == DigitRun(text, k + |PortKey|)
  {
    var a := k + |PortKey|;
    var b := a + |port|;
    var e := DigitRun(text, a);
    PrefixAtChar(text, b, SecureKey, 0);
    if e < b {
      PrefixAtChar(text, a, port, e - a);
    }
  }

  /** Tail captures are determined by where the tail starts. */
  lemma TailUnique(text: string, k: nat, port1: string, secure1: bool, port2: string, secure2: bool)
    requires TailAt(text, k, port1, secure1) && TailAt(text, k, port2, secure2)
    ensures port1 == port2 && secure1 == secure2
  {
    TailPortIsRun(text, k, port1, secure1);
    TailPortIsRun(text, k, port2, secure2);
    PrefixAtSame(text, k + |PortKey|, port1, port2);
    var w := k + |PortKey| + |port1| + |SecureKey|;
    PrefixAtChar(text, w, PyBool(secure1), 0);
    PrefixAtChar(text, w, PyBool(secure2), 0);
  }

  /** Matches `",port=(\d*),secure=(True|False)` at `k`, as the regex engine
      does after `(.*)` has consumed everything up to `k`. */
  function MatchTail(text: string, k: nat): (r: Option<(string, bool)>)
    ensures r.Some? ==> TailAt(text, k, r.value.0, r.value.1)
    ensures forall port, secure :: TailAt(text, k, port, secure) ==> r == Some((port, secure))
  {
    if !PrefixAt(text, k, PortKey) then
      TailNone(text, k);
      None
    else
      var a := k + |PortKey|;
      var d := DigitRun(text, a);
      if !PrefixAt(text, d, SecureKey) then
        TailNone(text, k);
        None
      else if PrefixAt(text, d + |SecureKey|, "True") then
        TailFound(text, k, true);
        Some((text[a..d], true))
      else if PrefixAt(text, d + |SecureKey|, "False") then
        TailFound(text, k, false);
        Some((text[a..d], false))
      else
        TailNone(text, k);
        None
  }

  /** The tail the search finds is a match, and the only one at `k`. */
  lemma TailFound(text: string, k: nat, secure: bool)
    requires PrefixAt(text, k, PortKey)
    requires var d := DigitRun(text, k + |PortKey|);
      PrefixAt(text, d, SecureKey) && PrefixAt(text, d + |SecureKey|, PyBool(secure))
    ensures var port := text[k + |PortKey|..DigitRun(text, k + |PortKey|)];
      && TailAt(text, k, port, secure)
      && forall port', secure' :: TailAt(text, k, port', secure') ==> port' == port && secure' == secure
  {
    var a := k + |PortKey|;
    PrefixAtFits(text, k, PortKey);
    var d := DigitRun(text, a);
    var port := text[a..d];
    assert AllDigits(port) by {
      forall i | 0 <= i < |port| ensures IsDigit(port[i]) { assert port[i] == text[a + i]; }
    }
    PrefixAtSlice(text, a, d);
    assert TailAt(text, k, port, secure);
    forall port', secure' | TailAt(text, k, port', secure')
      ensures port' == port && secure' == secure
    {
      TailUnique(text, k, port, secure, port', secure');
    }
  }

  /** No tail matches at `k` when the search finds none. */
  lemma TailNone(text: string, k: nat)
    requires PrefixAt(text, k, PortKey) ==>
      var d := DigitRun(text, k + |PortKey|);
      !PrefixAt(text, d, SecureKey)
      || (!PrefixAt(text, d + |SecureKey|, "True") && !PrefixAt(text, d + |SecureKey|, "False"))
    ensures forall port, secure :: !TailAt(text, k, port, secure)
  {
    forall port, secure | TailAt(text, k, port, secure)
      ensures false
    {
      TailPortIsRun(text, k, port, secure);
    }
  }

  /** Tries interface captures `text[s..k]`, `text[s..k-1]`, ..., `text[s..s]`
      in that order, as greedy `(.*)` backtracks. */
  function LongestCapture(text: string, s: nat, k: nat): (r: Option<Settings>)
    requires s <= k <= |text|
    requires forall j :: s <= j < k ==> text[j] != '\n'
    ensures r.Some? ==> CapturesAt(text, s, r.value) && |r.value.iface| <= k - s
    ensures forall m :: CapturesAt(text, s, m) && |m.iface| <= k - s ==> r.Some? && |m.iface| <= |r.value.iface|
    decreases k - s
  {
    match MatchTail(text, k)
    case Some((port, secure)) =>
      CaptureUpTo(text, s, k, port, secure);
      Some(Settings(text[s..k], port, secure))
    case None =>
      NoCaptureUpTo(text, s, k);
      if k == s then None else LongestCapture(text, s, k - 1)
  }

  /** A tail at `k` makes `text[s..k]` a capture when it holds no line break. */
  lemma CaptureUpTo(text: string, s: nat, k: nat, port: string, secure: bool)
    requires s <= k <= |text|
    requires forall j :: s <= j < k ==> text[j] != '\n'
    requires TailAt(text, k, port, secure)
    ensures CapturesAt(text, s, Settings(text[s..k], port, secure))
  {
    var iface := text[s..k];
    assert NoNewline(iface) by {
      forall i | 0 <= i < |iface| ensures iface[i] != '\n' { assert iface[i] == text[s + i]; }
    }
    PrefixAtSlice(text, s, k);
  }

  /** A capture of length `k - s` puts a tail at `k`. */
  lemma CaptureEndsWithTail(text: string, s: nat, k: nat, m: Settings)
    requires CapturesAt(text, s, m) && |m.iface| == k - s
    ensures TailAt(text, k, m.port, m.secure)
  {
    assert s + |m.iface| == k;
  }

  /** Without a tail at `k` no capture at `s` has length `k - s`. */
  lemma NoCaptureUpTo(text: string, s: nat, k: nat)
    requires forall port, secure :: !TailAt(text, k, port, secure)
    ensures forall m :: CapturesAt(text, s, m) ==> |m.iface| != k - s
  {
    forall m | CapturesAt(text, s, m) ensures |m.iface| != k - s {
      if |m.iface| == k - s {
        CaptureEndsWithTail(text, s, k, m);
      }
    }
  }

  /** The match at `p` with the longest interface capture, if any. */
  function MatchAt(text: string, p: nat): (r: Option<Settings>)
    ensures r.Some? ==> IsMatch(text, p, r.value)
    ensures forall m :: IsMatch(text, p, m) ==> r.Some? && |m.iface| <= |r.value.iface|
  {
    if !PrefixAt(text, p, Marker) then None
    else
      var s := p + |Marker|;
      var e := LineEnd(text, s);
      CaptureWithinLine(text, s);
      LongestCapture(text, s, e)
  }

  lemma CaptureWithinLine(text: string, s: nat)
    requires s <= |text|
    ensures forall m :: CapturesAt(text, s, m) ==> |m.iface| <= LineEnd(text, s) - s
  {
    var e := LineEnd(text, s);
    forall m | CapturesAt(text, s, m) ensures |m.iface| <= e - s {
      PrefixAtFits(text, s + |m.iface|, PortKey);
      if |m.iface| > e - s {
        PrefixAtChar(text, s, m.iface, e - s);
      }
    }
  }

  /** `re.search` started at position `p`: tries `p`, `p + 1`, ... up to the end. */
  function SearchFrom(text: string, p: nat): (r: Option<Found>)
    requires p <= |text|
    ensures r.Some? ==> p <= r.value.pos && IsMatch(text, r.value.pos, r.value.settings)
    ensures r.Some? ==> forall m :: IsMatch(text, r.value.pos, m) ==> |m.iface| <= |r.value.settings.iface|
    ensures forall q: nat, m :: p <= q && IsMatch(text, q, m) ==> r.Some? && r.value.pos <= q
    decreases |text| - p
  {
    match MatchAt(text, p)
    case Some(m) => Some(Found(p, m))
    case None => if p == |text| then None else SearchFrom(text, p + 1)
  }

  /** The match `re.search` reports on the whole text. */
  function Locate(text: string): (r: Option<Found>)
    ensures r.Some? ==> LeftmostLongest(text, r.value.pos, r.value.settings)
    ensures r.None? ==> forall q: nat, m :: !IsMatch(text, q, m)
  {
    SearchFrom(text, 0)
  }

  /** `get_old_settings` as its documentation describes it: the captured
      settings, or `None` (Python's `(None, None, None)`) when the file cannot
      be read (`content` is `None`) or holds no match. */
  function GetOldSettings(content: Option<string>): (r: Option<Settings>)
    ensures content.None? ==> r.None?
    ensures r.None? && content.Some? ==> forall q: nat, m :: !IsMatch(content.value, q, m)
    ensures r.Some? ==> content.Some? && exists q :: LeftmostLongest(content.value, q, r.value)
    ensures r.Some? ==> AllDigits(r.value.port) && NoNewline(r.value.iface)
  {
    match content
    case None => None
    case Some(text) =>
      match Locate(text)
      case None => None
      case Some(f) => Some(f.settings)
  }

  /** What happens to a call of `get_old_settings` in the code as written. */
  datatype ReadOutcome = Returned(settings: Option<Settings>) | RaisedAttributeError

  /** `get_old_settings` as written.  `except IOError, AttributeError:` is
      Python 2 syntax for catching `IOError` only, binding it to the name
      `AttributeError`; so a readable file without a match makes
      `p.search(...)` return `None`, and `.groups()` on it raises an
      `AttributeError` that is not caught. */
  function GetOldSettingsAsWritten(content: Option<string>): (r: ReadOutcome)
    ensures content.None? ==> r == Returned(None)
    ensures content.Some? ==> (r.RaisedAttributeError? <==> forall q: nat, m :: !IsMatch(content.value, q, m))
    ensures r.Returned? && r.settings.Some? ==> exists q :: LeftmostLongest(content.value, q, r.settings.value)
  {
    match content
    case None => Returned(None)
    case Some(text) =>
      match Locate(text)
      case None => RaisedAttributeError
      case Some(f) => Returned(Some(f.settings))
  }

  /** The discrepancy: on a readable file without a match (an empty
      configuration file, say) the code raises where its documentation
      promises `(None, None, None)`; on every other input the two agree. */
  lemma AsWrittenRaisesOnUnmatched(content: Option<string>)
    ensures content == Some("") ==> GetOldSettingsAsWritten(content) == RaisedAttributeError
    ensures content == Some("") ==> GetOldSettings(content) == None
    ensures GetOldSettingsAsWritten(content).Returned? ==> GetOldSettingsAsWritten(content).settings == GetOldSettings(content)
  {
  }

  /** A match found at `p0` that no earlier position and no longer capture
      beats is the one the search reports. */
  lemma LocateDetermined(text: string, p0: nat, m0: Settings)
    requires IsMatch(text, p0, m0)
    requires forall q: nat, m :: q < p0 ==> !IsMatch(text, q, m)
    requires forall m :: IsMatch(text, p0, m) ==> |m.iface| <= |m0.iface|
    ensures Locate(text) == Some(Found(p0, m0))
  {
    LocateAt(text, p0, m0);
    SameCapture(text, p0, Locate(text).value.settings, m0);
  }

  lemma LocateAt(text: string, p0: nat, m0: Settings)
    requires IsMatch(text, p0, m0)
    requires forall q: nat, m :: q < p0 ==> !IsMatch(text, q, m)
    ensures Locate(text).Some? && Locate(text).value.pos == p0
    ensures IsMatch(text, p0, Locate(text).value.settings)
    ensures |m0.iface| <= |Locate(text).value.settings.iface|
  {
  }

  /** Two matches at one position with interface captures of one length are the same match. */
  lemma SameCapture(text: string, p0: nat, m1: Settings, m2: Settings)
    requires IsMatch(text, p0, m1) && IsMatch(text, p0, m2) && |m1.iface| == |m2.iface|
    ensures m1 == m2
  {
    var s := p0 + |Marker|;
    assert CapturesAt(text, s, m1) && CapturesAt(text, s, m2);
    PrefixAtSame(text, s, m1.iface, m2.iface);
    TailUnique(text, s + |m1.iface|, m1.port, m1.secure, m2.port, m2.secure);
  }

  /** Every quotation mark in `s` comes after a line break of `s`. */
  predicate QuotesAfterLineBreak(s: string) {
    forall i :: 0 <= i < |s| && s[i] == '"' ==> exists j :: 0 <= j < i && s[j] == '\n'
  }

  /** The record written by one launch is read back by the next: the
      settings text, embedded between a prefix and a suffix of the
      configuration file, yields exactly the interface, the decimal port and
      the secure flag it was written from.  The conditions keep any other
      match out: the interface holds no line break (`.*` would stop there),
      `interface="` does not occur in the file before the settings (an
      earlier match would win), and the suffix holds no quotation mark before
      its first line break (greedy `.*` would extend to it). */
  lemma EmbeddedRoundTrip(pre: string, absDir: string, iface: string, port: nat, secure: bool, post: string)
    requires NoNewline(iface)
    requires !Occurs(Marker, pre + Quoted(absDir))
    requires QuotesAfterLineBreak(post)
    ensures GetOldSettings(Some(pre + NotebookOpts(absDir, iface, port, secure) + post))
         == Some(Settings(iface, Decimal(port), secure))
  {
    var t := Tail(Decimal(port), secure);
    TailFields(Decimal(port), secure);
    TailQuote(Decimal(port), secure);
    ReadBack(pre, Quoted(absDir), Settings(iface, Decimal(port), secure), t, post);
  }

  /** The text of a settings record `m` embedded in a file: `pre`, the
      quoted directory `q`, a comma, the marker, the interface, the tail text
      `tail` carrying the port and the flag, then the rest of the file. */
  function Record(pre: string, q: string, m: Settings, tail: string, post: string): string {
    pre + (q + "," + Marker + m.iface + tail) + post
  }

  /** Where the pieces of a settings record sit. */
  lemma RecordPieces(pre: string, q: string, m: Settings, tail: string, post: string)
    ensures var text := Record(pre, q, m, tail, post);
      var p := |pre| + |q| + 1;
      && PrefixAt(text, 0, pre + q)
      && PrefixAt(text, |pre| + |q|, ",")
      && PrefixAt(text, p, Marker)
      && PrefixAt(text, p + |Marker|, m.iface)
      && PrefixAt(text, p + |Marker| + |m.iface|, tail)
      && PrefixAt(text, p + |Marker| + |m.iface| + |tail|, post)
      && p + |Marker| + |m.iface| + |tail| + |post| == |text|
  {
    var text := Record(pre, q, m, tail, post);
    var p := |pre| + |q| + 1;
    var x := q + "," + Marker + m.iface + tail;
    PrefixAtSelf(text);
    PrefixAtConcat(text, 0, pre + x, post, p + |Marker| + |m.iface| + |tail|);
    PrefixAtConcat(text, 0, pre, x, |pre|);
    PrefixAtConcat(text, |pre|, q + "," + Marker + m.iface, tail, p + |Marker| + |m.iface|);
    PrefixAtConcat(text, |pre|, q + "," + Marker, m.iface, p + |Marker|);
    PrefixAtConcat(text, |pre|, q + ",", Marker, p);
    PrefixAtConcat(text, |pre|, q, ",", |pre| + |q|);
    PrefixAtConcat(text, 0, pre, q, |pre|);
  }

  /** The reader's verdict on a text holding a settings record: when the
      record follows a comma, nothing before it holds the marker, and the rest
      of its line holds no quotation mark, `get_old_settings` reports exactly
      that record. */
  lemma ReadBack(pre: string, q: string, m0: Settings, tail: string, post: string)
    requires NoNewline(m0.iface) && TailAt(tail, 0, m0.port, m0.secure)
    requires forall j :: 0 < j < |tail| ==> tail[j] != '"'
    requires !Occurs(Marker, pre + q) && QuotesAfterLineBreak(post)
    ensures Locate(Record(pre, q, m0, tail, post)) == Some(Found(|pre| + |q| + 1, m0))
  {
    RecordMatches(pre, q, m0, tail, post);
    RecordFirst(pre, q, m0, tail, post);
    RecordLongest(pre, q, m0, tail, post);
    LocateDetermined(Record(pre, q, m0, tail, post), |pre| + |q| + 1, m0);
  }

  lemma RecordMatches(pre: string, q: string, m0: Settings, tail: string, post: string)
    requires NoNewline(m0.iface) && TailAt(tail, 0, m0.port, m0.secure)
    ensures IsMatch(Record(pre, q, m0, tail, post), |pre| + |q| + 1, m0)
  {
    RecordPieces(pre, q, m0, tail, post);
    MatchFromLayout(Record(pre, q, m0, tail, post), |pre| + |q| + 1, m0, tail);
  }

  lemma RecordFirst(pre: string, q: string, m0: Settings, tail: string, post: string)
    requires !Occurs(Marker, pre + q)
    ensures forall p: nat, m :: p < |pre| + |q| + 1 ==> !IsMatch(Record(pre, q, m0, tail, post), p, m)
  {
    RecordPieces(pre, q, m0, tail, post);
    NoEarlierMarker(Record(pre, q, m0, tail, post), pre + q, |pre| + |q|);
  }

  lemma RecordLongest(pre: string, q: string, m0: Settings, tail: string, post: string)
    requires forall j :: 0 < j < |tail| ==> tail[j] != '"'
    requires QuotesAfterLineBreak(post)
    ensures forall m :: IsMatch(Record(pre, q, m0, tail, post), |pre| + |q| + 1, m) ==> |m.iface| <= |m0.iface|
  {
    RecordPieces(pre, q, m0, tail, post);
    NoLongerCapture(Record(pre, q, m0, tail, post), |pre| + |q| + 1 + |Marker|, m0, tail, post);
  }

  /** No match starts at or before `a` when `text[a]` is a comma and the
      marker does not occur in `head`, which `text` starts with. */
  lemma NoEarlierMarker(text: string, head: string, a: nat)
    requires |head| == a && PrefixAt(text, 0, head) && PrefixAt(text, a, ",")
    requires !Occurs(Marker, head)
    ensures forall q: nat, m :: q < a + 1 ==> !IsMatch(text, q, m)
  {
    forall q: nat | q <= a ensures !PrefixAt(text, q, Marker) {
      if PrefixAt(text, q, Marker) {
        if q + |Marker| <= a {
          PrefixAtWithin(text, head, q, Marker);
        } else {
          PrefixAtChar(text, q, Marker, a - q);
        }
      }
    }
  }

  /** No capture at `s0` reaches past the real tail `tail`, which follows the
      capture of `m0` and is followed by `post`. */
  lemma NoLongerCapture(text: string, s0: nat, m0: Settings, tail: string, post: string)
    requires var k0 := s0 + |m0.iface|;
      PrefixAt(text, k0, tail) && PrefixAt(text, k0 + |tail|, post) && k0 + |tail| + |post| == |text|
    requires forall j :: 0 < j < |tail| ==> tail[j] != '"'
    requires QuotesAfterLineBreak(post)
    ensures forall m :: CapturesAt(text, s0, m) ==> |m.iface| <= |m0.iface|
  {
    var k0 := s0 + |m0.iface|;
    var end := k0 + |tail|;
    forall m | CapturesAt(text, s0, m) ensures |m.iface| <= |m0.iface| {
      var k := s0 + |m.iface|;
      if k0 < k {
        PrefixAtChar(text, k, PortKey, 0);
        if k < end {
          PrefixAtChar(text, k0, tail, k - k0);
        } else {
          PrefixAtChar(text, end, post, k - end);
          var j :| 0 <= j < k - end && post[j] == '\n';
          PrefixAtChar(text, end, post, j);
          PrefixAtChar(text, s0, m.iface, end + j - s0);
        }
      }
    }
  }

  /** The headline round trip: `get_old_settings` applied to the settings
      text `notebook_opts` returns the interface, the port as a decimal string
      and the secure flag that were written. */
  lemma SettingsRoundTrip(absDir: string, iface: string, port: nat, secure: bool)
    requires NoNewline(iface)
    requires !Occurs(Marker, Quoted(absDir))
    ensures GetOldSettings(Some(NotebookOpts(absDir, iface, port, secure))) == Some(Settings(iface, Decimal(port), secure))
    ensures ValueOf(GetOldSettings(Some(NotebookOpts(absDir, iface, port, secure))).value.port) == port
  {
    assert "" + Quoted(absDir) == Quoted(absDir);
    assert "" + NotebookOpts(absDir, iface, port, secure) + "" == NotebookOpts(absDir, iface, port, secure);
    EmbeddedRoundTrip("", absDir, iface, port, secure, "");
    DecimalValue(port);
  }

  /** The marker condition cannot be dropped: a data directory whose path
      ends in `interface=` makes the reader capture a longer interface,
      `,interface="<iface>`, that starts inside the quoted directory. */
  lemma DirectoryEndingInMarkerMisreads(d: string, iface: string, port: nat, secure: bool)
    requires 'i' !in d && NoNewline(iface)
    ensures GetOldSettings(Some(NotebookOpts(d + "interface=", iface, port, secure)))
         != Some(Settings(iface, Decimal(port), secure))
  {
    var text := NotebookOpts(d + "interface=", iface, port, secure);
    var bad := Settings("," + Marker + iface, Decimal(port), secure);
    MisreadLayout(d, iface, port, secure);
    var r := GetOldSettings(Some(text));
    assert r.Some?;
    var q :| LeftmostLongest(text, q, r.value);
    assert q == |d| + 1;
    assert |bad.iface| <= |r.value.iface|;
  }

  /** The settings text of such a directory, regrouped so that the
      directory's own `interface="` is the marker. */
  lemma MisreadText(d: string, iface: string, port: nat, secure: bool)
    ensures NotebookOpts(d + "interface=", iface, port, secure)
         == "\"" + d + Marker + ("," + Marker + iface) + Tail(Decimal(port), secure)
  {
    assert "interface=" + "\"" == Marker;
    assert Quoted(d + "interface=") == "\"" + d + Marker;
  }

  /** In the settings text of such a directory a match starts right after
      the directory's opening quotation mark, and none starts earlier. */
  lemma MisreadLayout(d: string, iface: string, port: nat, secure: bool)
    requires 'i' !in d && NoNewline(iface)
    ensures IsMatch(NotebookOpts(d + "interface=", iface, port, secure), |d| + 1,
                    Settings("," + Marker + iface, Decimal(port), secure))
    ensures forall q: nat, m :: q < |d| + 1 ==> !IsMatch(NotebookOpts(d + "interface=", iface, port, secure), q, m)
  {
    MisreadText(d, iface, port, secure);
    MisreadMatch(d, iface, port, secure);
    MisreadNoEarlier(d, iface, port, secure);
  }

  lemma MisreadMatch(d: string, iface: string, port: nat, secure: bool)
    requires NoNewline(iface)
    ensures IsMatch("\"" + d + Marker + ("," + Marker + iface) + Tail(Decimal(port), secure), |d| + 1,
                    Settings("," + Marker + iface, Decimal(port), secure))
  {
    var pre := "\"" + d;
    var bad := Settings("," + Marker + iface, Decimal(port), secure);
    var t := Tail(Decimal(port), secure);
    MarkerThenLine(iface);
    TailFields(Decimal(port), secure);
    Four(pre, Marker, bad.iface, t);
    MatchFromLayout(pre + Marker + bad.iface + t, |pre|, bad, t);
  }

  lemma MisreadNoEarlier(d: string, iface: string, port: nat, secure: bool)
    requires 'i' !in d
    ensures forall q: nat, m :: q < |d| + 1 ==>
      !IsMatch("\"" + d + Marker + ("," + Marker + iface) + Tail(Decimal(port), secure), q, m)
  {
    var pre := "\"" + d;
    var rest := Marker + ("," + Marker + iface) + Tail(Decimal(port), secure);
    assert 'i' !in pre;
    assert pre + Marker + ("," + Marker + iface) + Tail(Decimal(port), secure) == pre + rest;
    NoMarkerStartsIn(pre, rest, |d| + 1);
  }

  /** `,interface="<iface>` holds no line break when `iface` holds none. */
  lemma MarkerThenLine(iface: string)
    requires NoNewline(iface)
    ensures NoNewline("," + Marker + iface)
  {
    var s := "," + Marker + iface;
    forall i | 0 <= i < |s| ensures s[i] != '\n' {
      if i >= 1 + |Marker| { assert s[i] == iface[i - 1 - |Marker|]; }
    }
  }

  /** A match cannot start inside a prefix that holds no `i`, the marker's first letter. */
  lemma NoMarkerStartsIn(pre: string, rest: string, n: nat)
    requires 'i' !in pre && n == |pre|
    ensures forall q: nat, m :: q < n ==> !IsMatch(pre + rest, q, m)
  {
    var text := pre + rest;
    forall q: nat | q < |pre| ensures !PrefixAt(text, q, Marker) {
      assert text[q] == pre[q];
    }
  }
}

=== FILE: text.dfy ===
/** Strings as the launcher handles them: decimal rendering of integers,
    digit runs, line ends, whitespace stripping and splitting on a separator. */
module Text {

  predicate IsDigit(c: char) { '0' <= c <= '9' }

  predicate AllDigits(s: string) { forall i :: 0 <= i < |s| ==> IsDigit(s[i]) }

  /** What Python's `.` in a regular expression accepts: anything but a line break. */
  predicate NoNewline(s: string) { forall i :: 0 <= i < |s| ==> s[i] != '\n' }

  /** The whitespace that Python 2's `str.strip()` removes. */
  predicate IsSpace(c: char) { c == ' ' || 9 <= c as int <= 13 }

  /** `lit` occurs in `s` starting at index `i`. */
  predicate PrefixAt(s: string, i: nat, lit: string) {
    i + |lit| <= |s| && AgreeFrom(s, i, lit, 0)
  }

  /** `s` agrees with `lit` placed at `i` from the `j`-th character of `lit` on. */
  predicate AgreeFrom(s: string, i: nat, lit: string, j: nat)
    decreases |lit| - j
  {
    j >= |lit| || (i + j < |s| && s[i + j] == lit[j] && AgreeFrom(s, i, lit, j + 1))
  }

  lemma {:induction false} AgreeFromChar(s: string, i: nat, lit: string, j: nat, x: nat)
    requires AgreeFrom(s, i, lit, j) && j <= x < |lit|
    ensures i + x < |s| && s[i + x] == lit[x]
    decreases x - j
  {
    if x > j {
      AgreeFromChar(s, i, lit, j + 1, x);
    }
  }

  lemma {:induction false} AgreeFromIntro(s: string, i: nat, lit: string, j: nat)
    requires i + |lit| <= |s|
    requires forall x :: j <= x < |lit| ==> s[i + x] == lit[x]
    ensures AgreeFrom(s, i, lit, j)
    decreases |lit| - j
  {
    if j < |lit| {
      var c := lit[j];
      assert s[i + j] == c;
      AgreeFromIntro(s, i, lit, j + 1);
    }
  }

  /** An occurrence fits in `s` and agrees with `s` character by character. */
  lemma PrefixAtChars(s: string, i: nat, lit: string)
    ensures PrefixAt(s, i, lit) <==> i + |lit| <= |s| && forall j :: 0 <= j < |lit| ==> s[i + j] == lit[j]
  {
    if PrefixAt(s, i, lit) {
      forall j | 0 <= j < |lit| ensures s[i + j] == lit[j] {
        AgreeFromChar(s, i, lit, 0, j);
      }
    }
    if i + |lit| <= |s| && forall j :: 0 <= j < |lit| ==> s[i + j] == lit[j] {
      AgreeFromIntro(s, i, lit, 0);
    }
  }

  lemma PrefixAtChar(s: string, i: nat, lit: string, j: nat)
    requires PrefixAt(s, i, lit) && j < |lit|
    ensures i + j < |s| && s[i + j] == lit[j]
  {
    AgreeFromChar(s, i, lit, 0, j);
  }

  lemma PrefixAtFits(s: string, i: nat, lit: string)
    requires PrefixAt(s, i, lit)
    ensures i + |lit| <= |s|
  {
    PrefixAtChars(s, i, lit);
  }

  /** A slice of `s` occurs in `s` where it was cut. */
  lemma PrefixAtSlice(s: string, i: nat, k: nat)
    requires i <= k <= |s|
    ensures PrefixAt(s, i, s[i..k])
  {
    PrefixAtChars(s, i, s[i..k]);
  }

  /** Occurrences of equal length at one place are equal. */
  lemma PrefixAtSame(s: string, i: nat, a: string, b: string)
    requires PrefixAt(s, i, a) && PrefixAt(s, i, b) && |a| == |b|
    ensures a == b
  {
    PrefixAtChars(s, i, a);
    PrefixAtChars(s, i, b);
    forall j | 0 <= j < |a| ensures a[j] == b[j] {
      assert s[i + j] == a[j];
    }
  }

  /** An occurrence inside an occurrence: `lit` at `j` of `piece`, `piece` at `i` of `s`. */
  lemma PrefixAtNested(s: string, i: nat, piece: string, j: nat, lit: string)
    requires PrefixAt(s, i, piece) && PrefixAt(piece, j, lit)
    ensures PrefixAt(s, i + j, lit)
  {
    PrefixAtChars(s, i, piece);
    PrefixAtChars(piece, j, lit);
    PrefixAtChars(s, i + j, lit);
    forall x | 0 <= x < |lit| ensures s[i + j + x] == lit[x] {
      assert s[i + (j + x)] == piece[j + x];
    }
  }

  /** An occurrence in `s` that ends within the prefix `t` of `s` is an occurrence in `t`. */
  lemma PrefixAtWithin(s: string, t: string, i: nat, lit: string)
    requires PrefixAt(s, 0, t) && PrefixAt(s, i, lit) && i + |lit| <= |t|
    ensures PrefixAt(t, i, lit)
  {
    PrefixAtChars(s, 0, t);
    PrefixAtChars(s, i, lit);
    PrefixAtChars(t, i, lit);
    forall x | 0 <= x < |lit| ensures t[i + x] == lit[x] {
      assert s[0 + (i + x)] == t[i + x];
    }
  }

  /** Every string occurs at the start of itself. */
  lemma PrefixAtSelf(s: string)
    ensures PrefixAt(s, 0, s)
  {
    PrefixAtChars(s, 0, s);
  }

  /** An occurrence of `a + b` is an occurrence of `a` followed by one of `b`
      at `k`, and conversely. */
  lemma PrefixAtConcat(s: string, i: nat, a: string, b: string, k: nat)
    requires k == i + |a|
    ensures PrefixAt(s, i, a + b) <==> PrefixAt(s, i, a) && PrefixAt(s, k, b)
  {
    PrefixAtChars(s, i, a + b);
    PrefixAtChars(s, i, a);
    PrefixAtChars(s, i + |a|, b);
    if PrefixAt(s, i, a) && PrefixAt(s, i + |a|, b) {
      forall j | 0 <= j < |a + b| ensures s[i + j] == (a + b)[j] {
        if j < |a| {
          assert s[i + j] == a[j];
        } else {
          assert s[i + |a| + (j - |a|)] == b[j - |a|];
        }
      }
    }
    if PrefixAt(s, i, a + b) {
      forall j | 0 <= j < |a| ensures s[i + j] == a[j] {
        assert s[i + j] == (a + b)[j];
      }
      forall j | 0 <= j < |b| ensures s[i + |a| + j] == b[j] {
        assert s[i + (|a| + j)] == (a + b)[|a| + j];
      }
    }
  }

  /** `lit` occurs somewhere in `s`. */
  predicate Occurs(lit: string, s: string) {
    exists i: nat | i <= |s| :: PrefixAt(s, i, lit)
  }

  function DigitChar(d: nat): (c: char)
    requires d < 10
    ensures IsDigit(c)
  {
    ('0' as int + d) as char
  }

  function DigitValue(c: char): nat
    requires IsDigit(c)
  {
    c as int - '0' as int
  }

  /** A digit string with no superfluous leading zero: what `%s` prints for a natural number. */
  predicate Canonical(s: string) {
    |s| > 0 && AllDigits(s) && (s[0] == '0' ==> |s| == 1)
  }

  /** Python's `'%s' % n` for a natural number `n`. */
  function Decimal(n: nat): (s: string)
    ensures Canonical(s)
    decreases n
  {
    if n < 10 then [DigitChar(n)] else Decimal(n / 10) + [DigitChar(n % 10)]
  }

  /** The number a digit string denotes (Python's `int(s)` on digits; 0 for the empty string). */
  function ValueOf(s: string): nat
    requires AllDigits(s)
    decreases |s|
  {
    if |s| == 0 then 0 else ValueOf(s[..|s| - 1]) * 10 + DigitValue(s[|s| - 1])
  }

  /** Python's `'%s' % n` for any integer. */
  function IntString(n: int): (s: string)
    ensures |s| > 0
    ensures n >= 0 ==> Canonical(s)
    ensures n < 0 ==> s[0] == '-' && Canonical(s[1..])
  {
    if n < 0 then "-" + Decimal(-n) else Decimal(n)
  }

  lemma {:induction false} DecimalValue(n: nat)
    ensures ValueOf(Decimal(n)) == n
    decreases n
  {
    if n >= 10 {
      var s := Decimal(n);
      DecimalValue(n / 10);
      assert s[..|s| - 1] == Decimal(n / 10);
    }
  }

  lemma {:induction false} LeadingDigitPositive(s: string)
    requires |s| > 0 && AllDigits(s) && s[0] != '0'
    ensures ValueOf(s) > 0
    decreases |s|
  {
    if |s| > 1 {
      LeadingDigitPositive(s[..|s| - 1]);
    }
  }

  lemma {:induction false} ValueDecimal(s: string)
    requires Canonical(s)
    ensures Decimal(ValueOf(s)) == s
    decreases |s|
  {
    if |s| > 1 {
      var t := s[..|s| - 1];
      LeadingDigitPositive(t);
      ValueDecimal(t);
      assert s == t + [s[|s| - 1]];
    }
  }

  /** Index of the first non-digit at or after `i` (or the end of `s`). */
  function DigitRun(s: string, i: nat): (e: nat)
    requires i <= |s|
    ensures i <= e <= |s|
    ensures forall j :: i <= j < e ==> IsDigit(s[j])
    ensures e < |s| ==> !IsDigit(s[e])
    decreases |s| - i
  {
    if i == |s| || !IsDigit(s[i]) then i else DigitRun(s, i + 1)
  }

  /** Index of the first line break at or after `i` (or the end of `s`). */
  function LineEnd(s: string, i: nat): (e: nat)
    requires i <= |s|
    ensures i <= e <= |s|
    ensures forall j :: i <= j < e ==> s[j] != '\n'
    ensures e < |s| ==> s[e] == '\n'
    decreases |s| - i
  {
    if i == |s| || s[i] == '\n' then i else LineEnd(s, i + 1)
  }

  /** Index of the first non-whitespace character at or after `i` (or the end of `s`). */
  function SpaceRun(s: string, i: nat): (e: nat)
    requires i <= |s|
    ensures i <= e <= |s|
    ensures forall j :: i <= j < e ==> IsSpace(s[j])
    ensures e < |s| ==> !IsSpace(s[e])
    decreases |s| - i
  {
    if i == |s| || !IsSpace(s[i]) then i else SpaceRun(s, i + 1)
  }

  /** Index just past the last non-whitespace character of `s[lo..e]` (or `lo`). */
  function SpaceRunBack(s: string, lo: nat, e: nat): (b: nat)
    requires lo <= e <= |s|
    ensures lo <= b <= e
    ensures forall j :: b <= j < e ==> IsSpace(s[j])
    ensures b > lo ==> !IsSpace(s[b - 1])
    decreases e - lo
  {
    if e == lo || !IsSpace(s[e - 1]) then e else SpaceRunBack(s, lo, e - 1)
  }

  /** Python 2's `s.strip()`: the slice of `s` left after removing whitespace at both ends. */
  function Strip(s: string): (r: string)
    ensures exists a: nat, b: nat | a <= b <= |s| ::
              && r == s[a..b]
              && (forall i :: 0 <= i < a ==> IsSpace(s[i]))
              && (forall i :: b <= i < |s| ==> IsSpace(s[i]))
    ensures |r| > 0 ==> !IsSpace(r[0]) && !IsSpace(r[|r| - 1])
    ensures r == "" <==> forall i :: 0 <= i < |s| ==> IsSpace(s[i])
  {
    var a := SpaceRun(s, 0);
    var b := SpaceRunBack(s, a, |s|);
    assert a < |s| ==> b > a;
    s[a..b]
  }

  /** Stripping a text without whitespace at either end changes nothing. */
  lemma StripTrimmed(s: string)
    requires |s| > 0 ==> !IsSpace(s[0]) && !IsSpace(s[|s| - 1])
    ensures Strip(s) == s
  {
    if |s| > 0 {
      assert SpaceRun(s, 0) == 0;
      assert SpaceRunBack(s, 0, |s|) == |s|;
    }
  }

  /** How many times `c` occurs in `s`. */
  function Count(s: string, c: char): nat
    decreases |s|
  {
    if |s| == 0 then 0 else Count(s[..|s| - 1], c) + (if s[|s| - 1] == c then 1 else 0)
  }

  lemma {:induction false} CountAppend(s: string, t: string, c: char)
    ensures Count(s + t, c) == Count(s, c) + Count(t, c)
    decreases |t|
  {
    if |t| > 0 {
      CountAppend(s, t[..|t| - 1], c);
      assert (s + t)[..|s + t| - 1] == s + t[..|t| - 1];
    } else {
      assert s + t == s;
    }
  }

  lemma {:induction false} CountAbsent(s: string, c: char)
    requires forall i :: 0 <= i < |s| ==> s[i] != c
    ensures Count(s, c) == 0
    decreases |s|
  {
    if |s| > 0 {
      CountAbsent(s[..|s| - 1], c);
    }
  }

  /** `parts` joined with `sep` between neighbours (Python's `sep.join(parts)`). */
  function Join(parts: seq<string>, sep: char): string
    decreases |parts|
  {
    if |parts| == 0 then ""
    else if |parts| == 1 then parts[0]
    else parts[0] + [sep] + Join(parts[1..], sep)
  }

  /** Python's `s.split(sep)` for a one-character separator. */
  function Split(s: string, sep: char): (parts: seq<string>)
    ensures |parts| > 0
    ensures forall i :: 0 <= i < |parts| ==> sep !in parts[i]
    decreases |s|
  {
    if sep !in s then [s]
    else
      var i := IndexOf(s, sep);
      [s[..i]] + Split(s[i + 1..], sep)
  }

  function IndexOf(s: string, c: char): (i: nat)
    requires c in s
    ensures i < |s| && s[i] == c && c !in s[..i]
  {
    if s[0] == c then 0 else 1 + IndexOf(s[1..], c)
  }

  /** Splitting undoes joining when no part holds the separator. */
  lemma {:induction false} SplitJoin(parts: seq<string>, sep: char)
    requires |parts| > 0
    requires forall i :: 0 <= i < |parts| ==> sep !in parts[i]
    ensures Split(Join(parts, sep), sep) == parts
    decreases |parts|
  {
    if |parts| > 1 {
      var s := Join(parts, sep);
      var rest := Join(parts[1..], sep);
      assert s == parts[0] + [sep] + rest;
      assert sep in s by { assert s[|parts[0]|] == sep; }
      var i := IndexOf(s, sep);
      assert s[..i] == parts[0];
      assert s[i + 1..] == rest;
      SplitJoin(parts[1..], sep);
    }
  }

  /** A part free of the separator, then the separator, splits off as the first part. */
  lemma SplitAfter(a: string, sep: char, b: string)
    requires sep !in a
    ensures Split(a + [sep] + b, sep) == [a] + Split(b, sep)
  {
    var s := a + [sep] + b;
    assert s[|a|] == sep;
    var i := IndexOf(s, sep);
    assert s[..|a|] == a;
    assert i == |a|;
    assert s[..i] == a;
    assert s[i + 1..] == b;
  }

  /** The first occurrence of `c` is the one with no `c` before it. */
  lemma IndexOfFirst(s: string, c: char, i: nat)
    requires i < |s| && s[i] == c && c !in s[..i]
    ensures IndexOf(s, c) == i
  {
  }

  /** `Split` cuts at the first separator. */
  lemma SplitFirst(s: string, sep: char, i: nat)
    requires i < |s| && s[i] == sep && sep !in s[..i]
    ensures Split(s, sep) == [s[..i]] + Split(s[i + 1..], sep)
  {
    assert sep in s;
    IndexOfFirst(s, sep, i);
  }

  /** Splitting at a separator placed between two texts gives the parts of
      the first followed by the parts of the second. */
  lemma {:induction false} SplitAppend(s: string, sep: char, t: string)
    ensures Split(s + [sep] + t, sep) == Split(s, sep) + Split(t, sep)
    decreases |s|
  {
    if sep !in s {
      SplitAfter(s, sep, t);
    } else {
      var i := IndexOf(s, sep);
      var a, b := s[..i], s[i + 1..];
      var u := s + [sep] + t;
      var v := b + [sep] + t;
      assert u[..i] == a;
      assert u[i + 1..] == v;
      SplitFirst(u, sep, i);
      SplitFirst(s, sep, i);
      SplitAppend(b, sep, t);
      var B, T := Split(b, sep), Split(t, sep);
      assert Split(u, sep) == [a] + (B + T);
      assert Split(s, sep) == [a] + B;
      Assoc([a], B, T);
    }
  }

  /** No digit and no minus sign is `c`, so `c` is not in a rendered integer. */
  lemma IntStringHasNo(n: int, c: char)
    requires !IsDigit(c) && c != '-'
    ensures c !in IntString(n)
  {
    var s := IntString(n);
    if n < 0 {
      assert forall i :: 1 <= i < |s| ==> s[i] == s[1..][i - 1];
    }
  }

  lemma Assoc<T>(a: seq<T>, b: seq<T>, c: seq<T>)
    ensures a + b + c == a + (b + c)
  {
  }

  /** The same, stated without the parts of `rest`, for callers whose
      `rest` is a literal. */
  lemma SplitLeadFirst(a: string, b: string, c: string, sep: char, rest: string)
    requires sep !in a && sep !in b && sep !in c
    ensures var parts := Split(a + [sep] + b + [sep] + c + [sep] + rest, sep);
      |parts| >= 3 && parts[0] == a && parts[1] == b && parts[2] == c
  {
    SplitLead(a, b, c, sep, rest);
  }

  /** Three separator-free parts joined by the separator split back into
      themselves; `rest` after a third separator is split on its own. */
  lemma SplitLead(a: string, b: string, c: string, sep: char, rest: string)
    requires sep !in a && sep !in b && sep !in c
    ensures Split(a + [sep] + b + [sep] + c + [sep] + rest, sep) == [a, b, c] + Split(rest, sep)
  {
    var S := [sep];
    var C := c + S + rest;
    var B := b + S + C;
    calc {
      a + S + b + S + c + S + rest;
      { Assoc(a + S + b + S + c, S, rest); }
      a + S + b + S + c + (S + rest);
      { Assoc(a + S + b + S, c, S + rest); Assoc(c, S, rest); }
      a + S + b + S + C;
      { Assoc(a + S + b, S, C); }
      a + S + b + (S + C);
      { Assoc(a + S, b, S + C); Assoc(b, S, C); }
      a + S + B;
    }
    var R := Split(rest, sep);
    SplitAfter(a, sep, B);
    SplitAfter(b, sep, C);
    SplitAfter(c, sep, rest);
    ConsThree(a, b, c, R);
  }

  lemma ConsThree<T>(a: T, b: T, c: T, r: seq<T>)
    ensures [a] + ([b] + ([c] + r)) == [a, b, c] + r
  {
  }

  lemma SplitThree(a: string, b: string, c: string, sep: char)
    requires sep !in a && sep !in b && sep !in c
    ensures Split(a + [sep] + b + [sep] + c, sep) == [a, b, c]
  {
    var S := [sep];
    calc {
      a + S + b + S + c;
      { Assoc(a + S + b, S, c); }
      a + S + b + (S + c);
      { Assoc(a + S, b, S + c); Assoc(b, S, c); }
      a + S + (b + S + c);
    }
    SplitAfter(a, sep, b + S + c);
    SplitAfter(b, sep, c);
  }

  lemma SplitFive(a: string, b: string, c: string, d: string, e: string, sep: char)
    requires sep !in a && sep !in b && sep !in c && sep !in d && sep !in e
    ensures Split(a + [sep] + b + [sep] + c + [sep] + d + [sep] + e, sep) == [a, b, c, d, e]
  {
    var S := [sep];
    var X := a + S + b + S + c + S;
    calc {
      X + d + S + e;
      { Assoc(X + d, S, e); }
      X + d + (S + e);
      { Assoc(X, d, S + e); Assoc(d, S, e); }
      X + (d + S + e);
    }
    SplitLead(a, b, c, sep, d + S + e);
    SplitAfter(d, sep, e);
  }

  /** Four separator-free parts, each followed by the separator. */
  lemma SplitFourClosed(a: string, b: string, c: string, d: string, sep: char)
    requires sep !in a && sep !in b && sep !in c && sep !in d
    ensures Split(a + [sep] + b + [sep] + c + [sep] + d + [sep], sep) == [a, b, c, d, ""]
  {
    var S := [sep];
    var X := a + S + b + S + c + S;
    calc {
      X + d + S;
      { assert X + d + S == X + d + S + ""; Assoc(X + d, S, ""); }
      X + d + (S + "");
      { Assoc(X, d, S + ""); }
      X + (d + S + "");
    }
    SplitLead(a, b, c, sep, d + S + "");
    SplitAfter(d, sep, "");
  }
}
